=== FILE: README.md ===
# Activity synchronisation core, in Dafny

This project models the reconciliation core of the activity-automation system. A timer job
collects activities from GitLab commits and from the mentoring calendar. The
synchronisation service then folds them into a per-user, per-month ledger of SharePoint
activity records. It marks exactly the records whose content changed, so that only those are
written back. Everything is modelled as pure functions over immutable datatypes.
C# null references become `Option`. Thrown exceptions become `Result` failures.

The synchronisation service (`SyncActivityService.cs`) is modelled in these modules:

- `Lookup` is LINQ's `FirstOrDefault`/`Any` with a predicate that may dereference null.
  The predicate is three-valued (accept, reject, throw), and the scan stops at the first
  element it accepts or throws on.
- `Directory` is `GetSpMembers`: one member per mentor item, then each root-mentor item is
  attached to the first mentor with the same ID or appended as a root-only member.
- `Resolution` is `CheckActivityUser` and `GetUserIdByEmail`.
- `Ledger` is `InitDictionary`, `UpdateDictionary` and `Ensure`, over
  `map<ActivityKey, ActivityValue>`.
- `ChangeSet` is the dirty filter and the insert/update split of `UpdateSpActivities`.
- `SyncScenarios` holds worked runs on small inputs.

The timer job (`TimerJob.cs`) is modelled in `TextSplit` (splitting the configuration
value), `EmailDedupe` (the `GroupBy(UserEmail).Select(First)` step) and `TimerJob`
(configuration, commits to activities, the calendar window, and the combined list).

The model follows the code, including where the code departs from the service's intended design:

- A root-mentor item that matches a mentor does not bring its paths into the member. Only
  `RootMentor` is set.
- Resolution is not exception-free. The lookups at lines 71, 111 and 128-129 dereference
  `Mentor`/`RootMentor` without a null check, so they throw `NullReferenceException` when the scan
  reaches a member lacking that role before a match. Two consequences follow.
  `Directory.SecondUnmatchedRootThrows` proves that the directory cannot be built when two
  root-mentor items match no mentor. `Resolution.CheckActivityUser` throws on a directory
  that has a mentor-only member ahead of the match.
- Seeding keys a persisted record by the root mentor's ID first. A new record is keyed by
  the resolved ID, which is the mentor's ID for an e-mail resolution. This asymmetry is kept.
  It matters when a persisted record's Mentor and RootMentor are different users: an
  activity of that mentor in the same month gets a second record instead of updating the
  persisted one. `SyncScenarios.SeedAndMergeKeysDiffer` shows this on a directory built by
  `GetSpMembers`.
- "New" records are those for which `SpActivity.IsNew` holds. Its definition is not part of
  this model, so it is a parameter `isNew` on the persisted item id.

Key uniqueness holds by construction: the ledger is a Dafny `map`.

## Model

| member | source | states |
|---|---|---|
| Lookup.FirstFrom | Test.Activities.Automation.ActivityLib/Models/Activity/Services/SyncActivityService/SyncActivityService.cs:128-131 | the LINQ scan returns the first element the predicate accepts, nothing iff it rejects every element, and throws iff it throws on an element before any is accepted |
| Lookup.TotalScanFindsFirst | Test.Activities.Automation.ActivityLib/Models/Activity/Services/SyncActivityService/SyncActivityService.cs:174-177 | the null-safe lookup for a new key never throws and finds the first member satisfying it, finding none iff no member does |
| Directory.AddRootMentor | Test.Activities.Automation.ActivityLib/Models/Activity/Services/SyncActivityService/SyncActivityService.cs:65-85 | a root item either sets RootMentor on the first mentor with its ID (no member added, paths untouched), or is appended as a root-only member only when every member has a mentor of another ID; it throws only if some member lacks a mentor or the root user is null |
| Directory.AddRootMentors | Test.Activities.Automation.ActivityLib/Models/Activity/Services/SyncActivityService/SyncActivityService.cs:65-87 | existing members keep mentor and paths; at most one root-only member is ever appended, and only when all existing members have mentors; a root mentor is only ever set to a user with the member's own mentor ID; every root item with a user ends up as some member's root mentor; members holding both roles under one ID keep doing so |
| Directory.AddRootMentorAttaches | Test.Activities.Automation.ActivityLib/Models/Activity/Services/SyncActivityService/SyncActivityService.cs:71-84 | one root item with a user is held afterwards as the root mentor of the member with its mentor ID, or of the root-only member it appends |
| Directory.RootsAbsorbed | Test.Activities.Automation.ActivityLib/Models/Activity/Services/SyncActivityService/SyncActivityService.cs:50-87 | in the built directory every root item with a user is some member's root mentor, and a member holding both roles holds them under one ID |
| Directory.MembersShape | Test.Activities.Automation.ActivityLib/Models/Activity/Services/SyncActivityService/SyncActivityService.cs:50-87 | every mentor item becomes one member in order with its user and paths; the directory has at most one extra member |
| Directory.MatchedRootAttaches | Test.Activities.Automation.ActivityLib/Models/Activity/Services/SyncActivityService/SyncActivityService.cs:71-76 | a root item whose ID matches a mentor attaches to that member and adds none |
| Directory.SecondUnmatchedRootThrows | Test.Activities.Automation.ActivityLib/Models/Activity/Services/SyncActivityService/SyncActivityService.cs:71-84 | two root items matching no mentor make the build throw (the second reaches the root-only member's null Mentor) |
| Directory.UnifiedMember | Test.Activities.Automation.ActivityLib/Models/Activity/Services/SyncActivityService/SyncActivityService.cs:50-87 | mentor 1 and root mentor 1 collapse into one member holding both roles |
| Resolution.GetUserIdByEmail | Test.Activities.Automation.ActivityLib/Models/Activity/Services/SyncActivityService/SyncActivityService.cs:126-135 | finds nothing only if no member holds the e-mail; a found id is the Mentor ID of the first member holding the e-mail, every earlier member holding both roles; throws only if some member lacks a role |
| Resolution.CheckActivityUser | Test.Activities.Automation.ActivityLib/Models/Activity/Services/SyncActivityService/SyncActivityService.cs:107-124 | a resolved activity equals the input except for the written-back user ID, and that ID is in the directory; resolved by e-mail, the ID is the one GetUserIdByEmail finds (the Mentor ID of the first member holding the e-mail); a miss means the ID (or e-mail) is held by no member; no ID and no e-mail is a miss; an exception needs a member lacking a role |
| Resolution.NullFreeResolution | Test.Activities.Automation.ActivityLib/Models/Activity/Services/SyncActivityService/SyncActivityService.cs:107-135 | when every member holds both roles nothing throws, and resolution succeeds iff the ID (or, without an ID, the e-mail) is held by some member |
| Resolution.WriteBackIsStable | Test.Activities.Automation.ActivityLib/Models/Activity/Services/SyncActivityService/SyncActivityService.cs:109-123 | an activity with its written-back ID resolves again, by ID, to itself without throwing |
| Resolution.EmailResolutionExample | Test.Activities.Automation.ActivityLib/Models/Activity/Services/SyncActivityService/SyncActivityService.cs:114-123 | a@x resolves to user 1; nobody@x is a miss |
| Ledger.InitDictionary | Test.Activities.Automation.ActivityLib/Models/Activity/Services/SyncActivityService/SyncActivityService.cs:202-239 | seeding succeeds iff no two persisted records share a (root ID else mentor ID else 0, year, month) key, otherwise throws DuplicateKey; keys are exactly those keys, each value is its record's data with IsModified false |
| Ledger.MergeExisting | Test.Activities.Automation.ActivityLib/Models/Activity/Services/SyncActivityService/SyncActivityService.cs:151-170 | the activity set becomes the union with the activity type, the path set the union with the activity's paths, the dirty flag is set iff either set grew and otherwise left as it was; id and roles unchanged |
| Ledger.UpdateDictionary | Test.Activities.Automation.ActivityLib/Models/Activity/Services/SyncActivityService/SyncActivityService.cs:137-200 | throws iff resolution throws; an unresolved activity leaves the dictionary unchanged; a resolved one touches only its key, merging into an existing record or inserting a dirty record with id 0 for the first member holding the ID; the result extends the input with dirty flags tracking change |
| Ledger.Apply | Test.Activities.Automation.ActivityLib/Models/Activity/Services/SyncActivityService/SyncActivityService.cs:99-102 | folding the activities in order throws iff resolving some activity throws; otherwise every resolved activity's type and paths are recorded under its key, keys are only added, sets only grow, a dirty flag is never cleared, and a record is dirty exactly when it is new, was dirty, or changed |
| Ledger.ApplyAddsOnlyResolved | Test.Activities.Automation.ActivityLib/Models/Activity/Services/SyncActivityService/SyncActivityService.cs:99-102 | the fold adds nothing else: every key, activity type and path of the result was in the dictionary under that key or belongs to a resolved activity with that key |
| Ledger.Ensure | Test.Activities.Automation.ActivityLib/Models/Activity/Services/SyncActivityService/SyncActivityService.cs:95-105 | a run throws iff two persisted records share a key or resolving some activity throws; otherwise every resolved activity is recorded under its key |
| Ledger.EnsureAddsOnlyResolved | Test.Activities.Automation.ActivityLib/Models/Activity/Services/SyncActivityService/SyncActivityService.cs:95-105 | a run adds to the persisted records only keys, activity types and paths that a resolved activity with that key brings |
| Ledger.EnsureMarksExactlyChanged | Test.Activities.Automation.ActivityLib/Models/Activity/Services/SyncActivityService/SyncActivityService.cs:95-105 | after a run the seed is extended, and a record is dirty iff it was created in the run or its activity or path set differs from the persisted one |
| Ledger.UpdateIdempotent | Test.Activities.Automation.ActivityLib/Models/Activity/Services/SyncActivityService/SyncActivityService.cs:137-200 | applying the same activity again, or the activity with its written-back ID, leaves the dictionary unchanged |
| ChangeSet.UpdateSpActivities | Test.Activities.Automation.ActivityLib/Models/Activity/Services/SyncActivityService/SyncActivityService.cs:298-319 | insert and update keys are disjoint and together exactly the dirty keys, routed by IsNew of the item id; each item takes year and month from the key and the full sets, id and roles from the value |
| ChangeSet.ChangeSetIsExactlyTheChanges | Test.Activities.Automation.ActivityLib/Models/Activity/Services/SyncActivityService/SyncActivityService.cs:298-312 | over a run, the items emitted are exactly the records created in the run and the persisted records whose content changed |
| ChangeSet.ChangeSetOnlyFromActivities | Test.Activities.Automation.ActivityLib/Models/Activity/Services/SyncActivityService/SyncActivityService.cs:298-312 | every record the change set emits has an activity of the run that resolved to its user, year and month |
| SyncScenarios.EndToEndUpdate | Test.Activities.Automation.ActivityLib/Models/Activity/Services/SyncActivityService/SyncActivityService.cs:137-170 | the persisted May record {Dev}/{Backend} plus a repeated and a new event yields one record {Dev, Mentoring}/{Backend, Frontend} to update and nothing to insert |
| SyncScenarios.SeedAndMergeKeysDiffer | Test.Activities.Automation.ActivityLib/Models/Activity/Services/SyncActivityService/SyncActivityService.cs:208-217 | with the directory built from mentor 1 and an unrelated root mentor 2, a record persisted with mentor 1 and root mentor 2 is keyed by 2, and an activity resolved by e-mail to mentor 1 (line 133) inserts a second record under 1 instead of updating it |
| TextSplit.Split | Test.Activities.Automation.TimerJob/TimerJob.cs:89 | every piece is non-empty and free of the separator |
| TextSplit.SplitSeparatorFree | Test.Activities.Automation.TimerJob/TimerJob.cs:89 | a non-empty value without separators is one piece, itself |
| TextSplit.SplitAtSeparator | Test.Activities.Automation.TimerJob/TimerJob.cs:89 | a separator cuts the value: the pieces are those of the text before it followed by those of the text after it, so doubled, leading and trailing separators add no pieces |
| TextSplit.SplitKeepsText | Test.Activities.Automation.TimerJob/TimerJob.cs:89 | the pieces concatenate to the value with its separators removed |
| TextSplit.SplitJoinRoundTrip | Test.Activities.Automation.TimerJob/TimerJob.cs:89 | splitting non-empty separator-free pieces joined by the separator gives them back |
| EmailDedupe.DedupeByEmail | Test.Activities.Automation.TimerJob/TimerJob.cs:70 | the single pass with a seen-set computes exactly the subsequence of first occurrences per e-mail |
| EmailDedupe.FirstPerEmailProperties | Test.Activities.Automation.TimerJob/TimerJob.cs:207 | the kept activities are first occurrences from the input, one per e-mail, and every input e-mail (null included) is kept |
| TimerJob.RepositoryFromValue | Test.Activities.Automation.TimerJob/TimerJob.cs:87-90 | a null value gives an all-null repository; otherwise it throws iff the split has fewer than 3 fields, and Host/ProjectId/Activity are fields 0, 1, 2 |
| TimerJob.ConfigValueRoundTrip | Test.Activities.Automation.TimerJob/TimerJob.cs:88-90 | host, project and activity joined by the separator are read back as Host, ProjectId and Activity |
| TimerJob.ItemsWithKey | Test.Activities.Automation.TimerJob/TimerJob.cs:84-86 | an item is used iff its Key is the GitLab repository key |
| TimerJob.ItemsWithKeyAppend | Test.Activities.Automation.TimerJob/TimerJob.cs:84-86 | the filter distributes over concatenation, so it keeps the matching items in their order and with their repetitions |
| TimerJob.GetConfigRepositories | Test.Activities.Automation.TimerJob/TimerJob.cs:84-91 | one repository per item with the GitLab key, in order, each read from that item's value; throws iff some such item has a malformed value |
| TimerJob.CommitSourcesComplete | Test.Activities.Automation.TimerJob/TimerJob.cs:65-67 | every commit of every branch of every repository is listed with its repository's Activity label, every entry is such a commit, and the list has one entry per commit |
| TimerJob.CommitSourcesSound | Test.Activities.Automation.TimerJob/TimerJob.cs:65-68 | every listed entry is a commit of one of the repositories' branches, tagged with that repository's label |
| TimerJob.BranchSourcesAppend | Test.Activities.Automation.TimerJob/TimerJob.cs:66-68 | the branches of a repository are listed one after the other, in order |
| TimerJob.OneBranchSources | Test.Activities.Automation.TimerJob/TimerJob.cs:67-68 | a branch contributes its commits, in order, each tagged with the repository label |
| TimerJob.CommitSourcesAppend | Test.Activities.Automation.TimerJob/TimerJob.cs:65-68 | the repositories are listed one after the other, in order, so each commit's position and multiplicity are fixed |
| TimerJob.OneRepositorySources | Test.Activities.Automation.TimerJob/TimerJob.cs:65-68 | a repository contributes the sources of its branches under its own label |
| TimerJob.ToActivities | Test.Activities.Automation.TimerJob/TimerJob.cs:67-68 | one activity per commit with the repository label, the commit's author e-mail and the parsed date, no user ID; throws iff some date does not parse |
| TimerJob.RepoActivitiesPerAuthor | Test.Activities.Automation.TimerJob/TimerJob.cs:62-71 | each development activity is the first activity built for its author e-mail (so it has the label and date of that author's first commit in listing order), e-mails are distinct, and every author e-mail is present |
| TimerJob.EventsInWindow | Test.Activities.Automation.TimerJob/TimerJob.cs:185-187 | an event is kept iff it has a start time not after yesterday and an end time not before it |
| TimerJob.EventsInWindowAppend | Test.Activities.Automation.TimerJob/TimerJob.cs:185-187 | the window filter distributes over concatenation, so it keeps the events in the window in calendar order and with their repetitions |
| TimerJob.EmployeeEmail | Test.Activities.Automation.TimerJob/TimerJob.cs:196-201 | reading the Employee column throws NullReference iff the field holds no value or a user value without a User; a missing field or a non-user value gives a null e-mail; a user value with a User gives exactly that User's e-mail |
| TimerJob.ReadMentoring | Test.Activities.Automation.TimerJob/TimerJob.cs:194-205 | succeeds iff every event in the window has a readable Employee column, and then gives one Mentoring activity per event, in order, with that event's e-mail |
| TimerJob.GetMentoringActivities | Test.Activities.Automation.TimerJob/TimerJob.cs:172-207 | no calendar gives no activities; it throws iff some event in the window has an unreadable Employee column; otherwise each activity is Mentoring dated yesterday, e-mails are distinct and are exactly the e-mails of the events in the window |
| TimerJob.TimerActivities | Test.Activities.Automation.TimerJob/TimerJob.cs:38-44 | the sent list is the development activities followed by the mentoring activities; it exists iff neither list throws, and a development failure is the one reported |

## Left out

- SharePoint access is not modelled: `SPSite`/`SPWeb`, `GetSpActivities`, `InsertActivity`, `UpdateActivity`, the `SPHelper` readers and writers, and the list-missing exceptions of lines 44-48. The lists arrive as sequences already read.
- `SpActivity.IsNew` is not part of this model. It is the parameter `isNew` on the item id.
- GitLab HTTP calls (`GetRepoCommits`, `GetBranches`, `GetBranchCommits`, `GetApiCollection`, `JsonDeserialize`) are network I/O. Repositories arrive with their branches and commits filled in.
- `SendActivities` (HTTP POST, three tries, five-minute delay) is asynchronous I/O.
- `DateTime.Now` and `DateTime.Parse` are parameters: `yesterday` is a value, and `parse` returns `None` where `DateTime.Parse` throws. A null commit date is not modelled.
- The constants (GitLab repository key, separator, Mentoring label) are parameters, because the Constants class is not part of this model. The separator is a single character.
- The calendar item's Employee column is given in one of four states (no field, no value, not a user value, a user value with or without a User). `GetField`, `GetFieldValue` and the cast themselves are SharePoint calls; a missing field is taken to give null, as the null-conditional call expects.
- A missing configuration list (`configItems` null) is not modelled, because it fails only later, inside the GitLab fetch.
- Logging, the exception-message wrapping in the `catch` blocks and the timer scheduling (`Execute`'s host) are not modelled.
- The `ActivityInfo` class is not part of this model. The activities built by the timer job are given an empty path set.
- Object identity is not modelled. The same `ActivityInfo` object listed twice is two values here, so a write-back on the first is not seen by the second.
- Dictionary enumeration order is not modelled. The change set is two maps keyed by ledger key, not two ordered lists.
- Resolution.CheckActivityUser: an exception is characterised as "some member lacks a role", not by the exact member where the scan stops. `Lookup.FirstFrom` states the exact position.
- Resolution.GetUserIdByEmail: an exception is characterised the same way as for CheckActivityUser.
- Directory.AddRootMentor: an exception is characterised as "some member lacks a mentor or the root user is null", not by the exact position.
- The multi-choice lists of a persisted record are taken as sets. The dictionary copies them into `HashSet`s on seeding, and the change set copies them back into lists.

=== FILE: activity_model.dfy ===
/** The shapes shared by the timer job and the synchronisation service:
    SharePoint users, dates, incoming activities and the exceptions the code can raise. */
module ActivityModel {
  import opened Wrappers

  /** A SharePoint user as far as the core looks at it: its numeric ID and its
      e-mail, which may be null. */
  datatype SPUser = SPUser(id: int, email: Option<string>)

  /** The ID of a user reference that may be null, read null-safely. */
  function IdOf(u: Option<SPUser>): Option<int>
  {
    match u
    case Some(user) => Some(user.id)
    case None => None
  }

  /** A .NET DateTime: calendar date plus a time of day in ticks. */
  datatype DateTime = DateTime(year: int, month: int, day: int, timeOfDay: int)

  /** `a <= b` on DateTime values: lexicographic on (year, month, day, time of day). */
  predicate NotAfter(a: DateTime, b: DateTime)
  {
    if a.year != b.year then a.year < b.year
    else if a.month != b.month then a.month < b.month
    else if a.day != b.day then a.day < b.day
    else a.timeOfDay <= b.timeOfDay
  }

  /** An incoming activity. `userId` is null until it is resolved; `activity`
      is the activity-type label, null when the repository configuration value was. */
  datatype ActivityInfo = ActivityInfo(
    userId: Option<int>,
    userEmail: Option<string>,
    date: DateTime,
    activity: Option<string>,
    paths: set<string>)

  /** The exceptions the modelled code can raise. */
  datatype Fault =
    | NullReference     // a member access on a null reference
    | DuplicateKey      // Dictionary.Add with a key already present
    | IndexOutOfRange   // indexing a split result that is too short
    | FormatError       // DateTime.Parse rejecting its input
}

=== FILE: change_set.dfy ===
/** The selection at the top of `UpdateSpActivities`: the dirty entries of the
    dictionary, projected to `SpActivity` items and routed to insert or update. */
module ChangeSet {
  import opened Wrappers
  import opened ActivityModel
  import opened Directory
  import opened Ledger

  /** The items to insert and to update, each under the dictionary key it came from.
      Dictionary enumeration order is not modelled. */
  datatype ChangeSet = ChangeSet(toInsert: map<ActivityKey, SpActivity>, toUpdate: map<ActivityKey, SpActivity>)

  /** The `SpActivity` built from an entry: item id, roles and both sets from the value,
      year and month from the key. */
  function Snapshot(k: ActivityKey, v: ActivityValue): SpActivity
  {
    SpActivity(v.activityId, v.mentor, v.rootMentor, k.year, k.month, v.activities, v.paths)
  }

  /** The keys whose entries are dirty. */
  function DirtyKeys(d: Dict): set<ActivityKey>
  {
    set k | k in d && d[k].isModified
  }

  /** `UpdateSpActivities` up to the SharePoint calls: `isNew` is `SpActivity.IsNew`,
      a test on the persisted item id. */
  function UpdateSpActivities(d: Dict, isNew: int -> bool): (c: ChangeSet)
    ensures c.toInsert.Keys !! c.toUpdate.Keys
    ensures c.toInsert.Keys + c.toUpdate.Keys == DirtyKeys(d)
    ensures forall k :: k in c.toInsert ==> k in d && isNew(d[k].activityId)
    ensures forall k :: k in c.toUpdate ==> k in d && !isNew(d[k].activityId)
    ensures forall k :: k in c.toInsert ==>
              var item := c.toInsert[k];
              && item.year == k.year && item.month == k.month
              && item.activities == d[k].activities && item.paths == d[k].paths
              && item.id == d[k].activityId && item.mentor == d[k].mentor && item.rootMentor == d[k].rootMentor
    ensures forall k :: k in c.toUpdate ==>
              var item := c.toUpdate[k];
              && item.year == k.year && item.month == k.month
              && item.activities == d[k].activities && item.paths == d[k].paths
              && item.id == d[k].activityId && item.mentor == d[k].mentor && item.rootMentor == d[k].rootMentor
  {
    var items := map k | k in d && d[k].isModified :: Snapshot(k, d[k]);
    ChangeSet(
      map k | k in items && isNew(items[k].id) :: items[k],
      map k | k in items && !isNew(items[k].id) :: items[k])
  }

  /** Over a whole run, the change set holds exactly the records created in the run and
      the persisted records whose content changed, each with its final sets. */
  lemma ChangeSetIsExactlyTheChanges(sps: seq<SpActivity>, acts: seq<ActivityInfo>, members: seq<Member>, isNew: int -> bool)
    requires Ensure(sps, acts, members).Success?
    ensures InitDictionary(sps).Success?
    ensures var seed := InitDictionary(sps).value;
            var r := Ensure(sps, acts, members).value;
            var c := UpdateSpActivities(r, isNew);
            forall k :: (k in c.toInsert || k in c.toUpdate) <==>
                          (k in r && (k !in seed || Changed(seed[k], r[k])))
  {
    EnsureMarksExactlyChanged(sps, acts, members);
  }

  /** Every record the change set emits is owed to an activity: some activity of the run
      resolved to a user and month with that record's key. */
  lemma ChangeSetOnlyFromActivities(sps: seq<SpActivity>, acts: seq<ActivityInfo>, members: seq<Member>, isNew: int -> bool)
    requires Ensure(sps, acts, members).Success?
    ensures var c := UpdateSpActivities(Ensure(sps, acts, members).value, isNew);
            forall k :: k in c.toInsert || k in c.toUpdate ==>
              exists i :: 0 <= i < |acts| && ResolvedActivity(acts[i], members).Some?
                          && KeyedAt(ResolvedActivity(acts[i], members).value, k)
  {
    ChangeSetIsExactlyTheChanges(sps, acts, members, isNew);
    EnsureAddsOnlyResolved(sps, acts, members);
    EnsureMarksExactlyChanged(sps, acts, members);
    var seed := InitDictionary(sps).value;
    var r := Ensure(sps, acts, members).value;
    forall k | k in r && (k !in seed || Changed(seed[k], r[k]))
      ensures exists i :: 0 <= i < |acts| && ResolvedActivity(acts[i], members).Some?
                          && KeyedAt(ResolvedActivity(acts[i], members).value, k)
    {
      ChangeIsOwed(seed, r, acts, members, k);
    }
  }
}

=== FILE: directory.dfy ===
/** The member directory built by `GetSpMembers`: one member per item of the mentor
    list, then each item of the root-mentor list either attached to the first mentor
    with the same user ID or appended as a root-only member. */
module Directory {
  import opened Wrappers
  import opened ActivityModel
  import opened Lookup

  /** One item of the Mentors or RootMentors list: its Employee user (null when the
      field is empty) and its Paths choices. */
  datatype RoleEntry = RoleEntry(user: Option<SPUser>, paths: seq<string>)

  /** A directory member: the mentor and root-mentor roles the user holds, and the
      paths of the list item that created the member. */
  datatype Member = Member(mentor: Option<SPUser>, rootMentor: Option<SPUser>, paths: seq<string>)

  /** Does the member's mentor have the root mentor's ID? Both IDs are read without a
      null check, so the test throws on a member without a mentor, and on any member
      when the root-mentor user itself is null. */
  function SameMentorId(root: Option<SPUser>): Member -> Tri
  {
    (x: Member) =>
      if x.mentor.None? || root.None? then Throws
      else if x.mentor.value.id == root.value.id then Yes
      else No
  }

  /** The first loop of `GetSpMembers`: one member per mentor item, in list order. */
  function MentorMembers(mentors: seq<RoleEntry>): seq<Member>
  {
    seq(|mentors|, i requires 0 <= i < |mentors| => Member(mentors[i].user, None, mentors[i].paths))
  }

  /** One iteration of the second loop of `GetSpMembers`. */
  function AddRootMentor(members: seq<Member>, root: RoleEntry): (r: Result<seq<Member>, Fault>)
    ensures r.Success? && |r.value| == |members| ==>
              exists i :: && 0 <= i < |members|
                          && members[i].mentor.Some? && root.user.Some?
                          && members[i].mentor.value.id == root.user.value.id
                          && (forall j :: 0 <= j < i ==> SameMentorId(root.user)(members[j]) == No)
                          && r.value == members[i := members[i].(rootMentor := root.user)]
    ensures r.Success? && |r.value| != |members| ==>
              && (forall j :: 0 <= j < |members| ==> SameMentorId(root.user)(members[j]) == No)
              && r.value == members + [Member(None, root.user, root.paths)]
    ensures r.Failure? ==>
              exists k :: 0 <= k < |members| && (members[k].mentor.None? || root.user.None?)
  {
    match FirstOrDefault(members, SameMentorId(root.user))
    case Failure(e) => Failure(e)
    case Success(Some(i)) => Success(members[i := members[i].(rootMentor := root.user)])
    case Success(None) => Success(members + [Member(None, root.user, root.paths)])
  }

  /** Every member holding both roles holds them under one user ID. */
  predicate OneIdPerMember(members: seq<Member>)
  {
    forall i :: 0 <= i < |members| && members[i].mentor.Some? && members[i].rootMentor.Some? ==>
      members[i].mentor.value.id == members[i].rootMentor.value.id
  }

  /** Some member holds the user ID as its root mentor. */
  predicate HeldAsRoot(members: seq<Member>, id: int)
  {
    exists i :: 0 <= i < |members| && IdOf(members[i].rootMentor) == Some(id)
  }

  /** The second loop of `GetSpMembers`, over the remaining root-mentor items.
      Existing members keep their mentor and paths; at most one member is appended,
      and only when every existing member has a mentor. A member's root mentor is
      either left as it was or set to a user with the member's own mentor ID; every
      root item with a user ends up held as some member's root mentor. */
  function AddRootMentors(members: seq<Member>, roots: seq<RoleEntry>): (r: Result<seq<Member>, Fault>)
    decreases |roots|
    ensures r.Success? ==>
              && |members| <= |r.value| <= |members| + 1
              && (forall i :: 0 <= i < |members| ==>
                    r.value[i].mentor == members[i].mentor && r.value[i].paths == members[i].paths)
              && (|r.value| == |members| + 1 ==>
                    && r.value[|members|].mentor.None?
                    && forall i :: 0 <= i < |members| ==> members[i].mentor.Some?)
    ensures r.Success? ==>
              forall i :: 0 <= i < |members| ==>
                || r.value[i].rootMentor == members[i].rootMentor
                || (members[i].mentor.Some? && IdOf(r.value[i].rootMentor) == Some(members[i].mentor.value.id))
    ensures r.Success? ==>
              forall j :: 0 <= j < |roots| && roots[j].user.Some? ==> HeldAsRoot(r.value, roots[j].user.value.id)
    ensures r.Success? && OneIdPerMember(members) ==> OneIdPerMember(r.value)
  {
    if |roots| == 0 then Success(members)
    else
      match AddRootMentor(members, roots[0])
      case Failure(e) => Failure(e)
      case Success(next) =>
        AddRootMentorKeepsMentors(members, roots[0]);
        AddRootMentorAttaches(members, roots[0]);
        var r := AddRootMentors(next, roots[1..]);
        if r.Success? then RootsStep(members, next, r.value, roots); r else r
  }

  /** One root item sets root mentors only to users with the member's own mentor ID,
      leaves a root-only member it appends untouched later, and is itself held as a root
      mentor by a member that cannot later be given another root-mentor ID. */
  lemma AddRootMentorAttaches(members: seq<Member>, root: RoleEntry)
    requires AddRootMentor(members, root).Success?
    ensures var next := AddRootMentor(members, root).value;
            && (forall i :: 0 <= i < |members| ==>
                  || next[i].rootMentor == members[i].rootMentor
                  || (members[i].mentor.Some? && IdOf(next[i].rootMentor) == Some(members[i].mentor.value.id)))
            && (root.user.Some? ==>
                  exists i :: && 0 <= i < |next| && IdOf(next[i].rootMentor) == Some(root.user.value.id)
                              && (next[i].mentor.None? || next[i].mentor.value.id == root.user.value.id))
            && (OneIdPerMember(members) ==> OneIdPerMember(next))
  {
    var next := AddRootMentor(members, root).value;
    if |next| == |members| {
      var i :| && 0 <= i < |members| && members[i].mentor.Some? && root.user.Some?
               && members[i].mentor.value.id == root.user.value.id
               && next == members[i := members[i].(rootMentor := root.user)];
      assert IdOf(next[i].rootMentor) == Some(root.user.value.id);
    } else {
      assert next[|members|] == Member(None, root.user, root.paths);
    }
  }

  /** The rest of the loop keeps what the first root item established. */
  lemma RootsStep(members: seq<Member>, next: seq<Member>, last: seq<Member>, roots: seq<RoleEntry>)
    requires |roots| > 0 && AddRootMentor(members, roots[0]) == Success(next)
    requires |next| <= |last|
    requires forall i :: 0 <= i < |next| ==> last[i].mentor == next[i].mentor
    requires forall i :: 0 <= i < |next| ==>
               || last[i].rootMentor == next[i].rootMentor
               || (next[i].mentor.Some? && IdOf(last[i].rootMentor) == Some(next[i].mentor.value.id))
    requires forall j :: 0 <= j < |roots[1..]| && roots[1..][j].user.Some? ==> HeldAsRoot(last, roots[1..][j].user.value.id)
    requires |last| == |next| + 1 ==> last[|next|].mentor.None?
    requires OneIdPerMember(next) ==> OneIdPerMember(last)
    ensures forall i :: 0 <= i < |members| ==>
              || last[i].rootMentor == members[i].rootMentor
              || (members[i].mentor.Some? && IdOf(last[i].rootMentor) == Some(members[i].mentor.value.id))
    ensures forall j :: 0 <= j < |roots| && roots[j].user.Some? ==> HeldAsRoot(last, roots[j].user.value.id)
    ensures OneIdPerMember(members) ==> OneIdPerMember(last)
  {
    AddRootMentorKeepsMentors(members, roots[0]);
    AddRootMentorAttaches(members, roots[0]);
    forall j | 0 <= j < |roots| && roots[j].user.Some?
      ensures HeldAsRoot(last, roots[j].user.value.id)
    {
      if j == 0 {
        var id := roots[0].user.value.id;
        var i :| && 0 <= i < |next| && IdOf(next[i].rootMentor) == Some(id)
                 && (next[i].mentor.None? || next[i].mentor.value.id == id);
        assert IdOf(last[i].rootMentor) == Some(id);
      } else {
        assert roots[j] == roots[1..][j - 1];
      }
    }
  }

  /** One root item keeps every existing member's mentor and paths, and appends a member
      (without a mentor) only when all existing members have mentors. */
  lemma AddRootMentorKeepsMentors(members: seq<Member>, root: RoleEntry)
    requires AddRootMentor(members, root).Success?
    ensures var next := AddRootMentor(members, root).value;
            && |members| <= |next| <= |members| + 1
            && (forall i :: 0 <= i < |members| ==> next[i].mentor == members[i].mentor && next[i].paths == members[i].paths)
            && (|next| == |members| + 1 ==>
                  && next[|members|].mentor.None?
                  && forall i :: 0 <= i < |members| ==> members[i].mentor.Some?)
  {
    var next := AddRootMentor(members, root).value;
    if |next| == |members| {
      var i :| 0 <= i < |members| && next == members[i := members[i].(rootMentor := root.user)];
    } else {
      assert forall j :: 0 <= j < |members| ==> SameMentorId(root.user)(members[j]) == No;
    }
  }

  /** `GetSpMembers` once both lists have been read. */
  function GetSpMembers(mentors: seq<RoleEntry>, roots: seq<RoleEntry>): Result<seq<Member>, Fault>
  {
    AddRootMentors(MentorMembers(mentors), roots)
  }

  /** Every root-mentor item with a user is held as some member's root mentor, and a
      member holding both roles holds them under one user ID: a person listed in both
      lists collapses into one member. */
  lemma RootsAbsorbed(mentors: seq<RoleEntry>, roots: seq<RoleEntry>)
    requires GetSpMembers(mentors, roots).Success?
    ensures var r := GetSpMembers(mentors, roots).value;
            && OneIdPerMember(r)
            && forall j :: 0 <= j < |roots| && roots[j].user.Some? ==> HeldAsRoot(r, roots[j].user.value.id)
  {
    assert OneIdPerMember(MentorMembers(mentors));
  }

  /** Every mentor item becomes one member, in order, keeping its user and paths; root
      items never add paths to an existing member, and add at most one member in all. */
  lemma MembersShape(mentors: seq<RoleEntry>, roots: seq<RoleEntry>)
    requires GetSpMembers(mentors, roots).Success?
    ensures var r := GetSpMembers(mentors, roots).value;
            && |mentors| <= |r| <= |mentors| + 1
            && forall i :: 0 <= i < |mentors| ==>
                 r[i].mentor == mentors[i].user && r[i].paths == mentors[i].paths
  {
  }

  /** A root item whose user has the ID of a mentor member (with every earlier member
      holding a mentor of another ID) is attached to that member and adds no member. */
  lemma {:induction false} MatchedRootAttaches(members: seq<Member>, root: RoleEntry, i: nat)
    requires i < |members|
    requires root.user.Some? && members[i].mentor.Some?
    requires members[i].mentor.value.id == root.user.value.id
    requires forall j :: 0 <= j < i ==> members[j].mentor.Some? && members[j].mentor.value.id != root.user.value.id
    ensures AddRootMentor(members, root) == Success(members[i := members[i].(rootMentor := root.user)])
  {
    assert SameMentorId(root.user)(members[i]) == Yes;
    var r := FirstOrDefault(members, SameMentorId(root.user));
    assert r != Success(None);
    var k := r.value.value;
    assert !(k < i) && !(k > i);
  }

  /** Once a root-only member exists, the next root item that matches no mentor
      reaches it and dereferences its null Mentor: the directory cannot be built
      whenever two root items match no mentor member. */
  lemma {:induction false} SecondUnmatchedRootThrows(mentors: seq<RoleEntry>, a: RoleEntry, b: RoleEntry)
    requires a.user.Some? && b.user.Some?
    requires forall i :: 0 <= i < |mentors| ==>
               mentors[i].user.Some? && mentors[i].user.value.id != a.user.value.id
               && mentors[i].user.value.id != b.user.value.id
    ensures GetSpMembers(mentors, [a, b]).Failure?
  {
    var ms := MentorMembers(mentors);
    assert forall j :: 0 <= j < |ms| ==> SameMentorId(a.user)(ms[j]) == No;
    assert FirstOrDefault(ms, SameMentorId(a.user)) == Success(None);
    var next := ms + [Member(None, a.user, a.paths)];
    assert AddRootMentor(ms, a) == Success(next);
    assert forall j :: 0 <= j < |ms| ==> SameMentorId(b.user)(next[j]) == No;
    assert SameMentorId(b.user)(next[|ms|]) == Throws;
    assert AddRootMentor(next, b).Failure?;
    assert [a, b][1..] == [b];
    assert AddRootMentors(next, [b]).Failure?;
  }

  /** The unification example: mentor 1 with e-mail a@x and root mentor 1 collapse into
      one member carrying both roles. */
  lemma UnifiedMember()
    ensures var u := SPUser(1, Some("a@x"));
            GetSpMembers([RoleEntry(Some(u), [])], [RoleEntry(Some(SPUser(1, None)), [])])
              == Success([Member(Some(u), Some(SPUser(1, None)), [])])
  {
    var u := SPUser(1, Some("a@x"));
    var root := RoleEntry(Some(SPUser(1, None)), []);
    var ms := MentorMembers([RoleEntry(Some(u), [])]);
    assert ms == [Member(Some(u), None, [])];
    MatchedRootAttaches(ms, root, 0);
    var attached := [Member(Some(u), Some(SPUser(1, None)), [])];
    assert ms[0 := ms[0].(rootMentor := root.user)] == attached;
    assert AddRootMentors(attached, []) == Success(attached);
    assert [root][1..] == [];
  }
}

=== FILE: email_dedupe.dfy ===
/** Grouping activities by user e-mail and keeping the first of each group: one activity per
    e-mail (a null e-mail is a group of its own), the first of each group, groups in
    order of their first appearance. */
module EmailDedupe {
  import opened Wrappers
  import opened ActivityModel

  /** `xs[i]` is the first activity with its e-mail. */
  predicate IsFirstOfEmail(xs: seq<ActivityInfo>, i: int)
    requires 0 <= i < |xs|
  {
    forall j :: 0 <= j < i ==> xs[j].userEmail != xs[i].userEmail
  }

  /** The subsequence of first occurrences: the reference reading of the grouping. */
  function FirstPerEmail(xs: seq<ActivityInfo>): seq<ActivityInfo>
  {
    if |xs| == 0 then []
    else FirstPerEmail(xs[..|xs| - 1]) + (if IsFirstOfEmail(xs, |xs| - 1) then [xs[|xs| - 1]] else [])
  }

  /** The e-mails occurring in a list of activities. */
  function Emails(xs: seq<ActivityInfo>): set<Option<string>>
  {
    set i | 0 <= i < |xs| :: xs[i].userEmail
  }

  /** The grouping as a single pass that remembers the e-mails already seen. */
  method DedupeByEmail(xs: seq<ActivityInfo>) returns (r: seq<ActivityInfo>)
    ensures r == FirstPerEmail(xs)
  {
    r := [];
    var seen: set<Option<string>> := {};
    for i := 0 to |xs|
      invariant r == FirstPerEmail(xs[..i])
      invariant seen == Emails(xs[..i])
    {
      assert xs[..i + 1][..i] == xs[..i];
      assert IsFirstOfEmail(xs[..i + 1], i) <==> xs[i].userEmail !in seen by {
        if xs[i].userEmail in seen {
          var j :| 0 <= j < i && xs[..i][j].userEmail == xs[i].userEmail;
          assert xs[..i + 1][j] == xs[..i][j];
        }
      }
      if xs[i].userEmail !in seen {
        r := r + [xs[i]];
        seen := seen + {xs[i].userEmail};
      }
      assert Emails(xs[..i + 1]) == Emails(xs[..i]) + {xs[i].userEmail} by {
        assert forall j :: 0 <= j < i ==> xs[..i + 1][j] == xs[..i][j];
        assert xs[..i + 1][i] == xs[i];
      }
    }
    assert xs[..|xs|] == xs;
  }

  lemma EmailsAppend(xs: seq<ActivityInfo>, x: ActivityInfo)
    ensures Emails(xs + [x]) == Emails(xs) + {x.userEmail}
  {
    assert forall i :: 0 <= i < |xs| ==> (xs + [x])[i] == xs[i];
    assert (xs + [x])[|xs|] == x;
  }

  /** The kept activities come from the input, each the first of its e-mail, their
      e-mails pairwise distinct, and every input e-mail is kept: exactly one activity
      per e-mail group. */
  lemma {:induction false} FirstPerEmailProperties(xs: seq<ActivityInfo>)
    ensures var r := FirstPerEmail(xs);
            && (forall k :: 0 <= k < |r| ==> exists i :: 0 <= i < |xs| && r[k] == xs[i] && IsFirstOfEmail(xs, i))
            && (forall k, l :: 0 <= k < l < |r| ==> r[k].userEmail != r[l].userEmail)
            && Emails(r) == Emails(xs)
    decreases |xs|
  {
    if |xs| > 0 {
      var n := |xs| - 1;
      var pre := xs[..n];
      FirstPerEmailProperties(pre);
      var rp := FirstPerEmail(pre);
      var r := FirstPerEmail(xs);
      assert forall i :: 0 <= i < n ==> pre[i] == xs[i];
      forall i | 0 <= i < n && IsFirstOfEmail(pre, i)
        ensures IsFirstOfEmail(xs, i)
      {
        assert forall j :: 0 <= j < i ==> pre[j] == xs[j];
      }
      assert Emails(xs) == Emails(pre) + {xs[n].userEmail};
      if IsFirstOfEmail(xs, n) {
        assert r == rp + [xs[n]];
        assert xs[n].userEmail !in Emails(pre);
        EmailsAppend(rp, xs[n]);
        forall k | 0 <= k < |rp|
          ensures rp[k].userEmail != xs[n].userEmail
        {
          assert rp[k].userEmail in Emails(rp);
        }
      } else {
        assert r == rp;
        var j :| 0 <= j < n && xs[j].userEmail == xs[n].userEmail;
        assert xs[n].userEmail in Emails(pre);
      }
    }
  }
}

=== FILE: ledger.dfy ===
/** The comparison dictionary of `SyncActivityService`: seeded from the persisted
    activity records (`InitDictionary`), then updated with each incoming activity
    (`UpdateDictionary`), the whole run being `Ensure`. */
module Ledger {
  import opened Wrappers
  import opened ActivityModel
  import opened Lookup
  import opened Directory
  import opened Resolution

  /** `ActivityKey`: one ledger record per user, year and month. */
  datatype ActivityKey = ActivityKey(userId: int, year: int, month: int)

  /** `ActivityValue`: the persisted item id (0, the default, for a record created in
      this run), the mentor and root mentor, the accumulated path and activity-type sets,
      and the dirty flag. */
  datatype ActivityValue = ActivityValue(
    activityId: int,
    mentor: Option<SPUser>,
    rootMentor: Option<SPUser>,
    paths: set<string>,
    activities: set<Option<string>>,
    isModified: bool)

  /** `SpActivity`: an item of the Activities list, as read from or written to SharePoint. */
  datatype SpActivity = SpActivity(
    id: int,
    mentor: Option<SPUser>,
    rootMentor: Option<SPUser>,
    year: int,
    month: int,
    activities: set<Option<string>>,
    paths: set<string>)

  type Dict = map<ActivityKey, ActivityValue>

  /** The user part of a persisted record's key: the root mentor's ID if there is one,
      else the mentor's, else 0. */
  function SeedUserId(sp: SpActivity): int
  {
    if sp.rootMentor.Some? then sp.rootMentor.value.id
    else if sp.mentor.Some? then sp.mentor.value.id
    else 0
  }

  function SeedKey(sp: SpActivity): ActivityKey
  {
    ActivityKey(SeedUserId(sp), sp.year, sp.month)
  }

  /** The dictionary value built from a persisted record: clean, carrying its item id. */
  function Seeded(sp: SpActivity): ActivityValue
  {
    ActivityValue(sp.id, sp.mentor, sp.rootMentor, sp.paths, sp.activities, false)
  }

  /** No two persisted records share a key. */
  predicate SeedKeysDistinct(sps: seq<SpActivity>)
  {
    forall i, j :: 0 <= i < j < |sps| ==> SeedKey(sps[i]) != SeedKey(sps[j])
  }

  /** `InitDictionary`: one clean entry per persisted record; `Dictionary.Add` throws
      on the first record whose key is already present. */
  function InitDictionary(sps: seq<SpActivity>): (r: Result<Dict, Fault>)
    decreases |sps|
    ensures r.Success? <==> SeedKeysDistinct(sps)
    ensures r.Failure? ==> r.error == DuplicateKey
    ensures r.Success? ==> r.value.Keys == set i | 0 <= i < |sps| :: SeedKey(sps[i])
    ensures r.Success? ==> forall i :: 0 <= i < |sps| ==> r.value[SeedKey(sps[i])] == Seeded(sps[i])
    ensures r.Success? ==> forall k :: k in r.value ==> !r.value[k].isModified
  {
    if |sps| == 0 then Success(map[])
    else
      var last := sps[|sps| - 1];
      assert forall i :: 0 <= i < |sps| - 1 ==> sps[..|sps| - 1][i] == sps[i];
      match InitDictionary(sps[..|sps| - 1])
      case Failure(e) => Failure(e)
      case Success(d) =>
        if SeedKey(last) in d then Failure(DuplicateKey)
        else Success(d[SeedKey(last) := Seeded(last)])
  }

  /** The key of a resolved activity: its user ID and its date's year and month. */
  function KeyOf(a: ActivityInfo): ActivityKey
    requires a.userId.Some?
  {
    ActivityKey(a.userId.value, a.date.year, a.date.month)
  }

  /** The content sets of a record differ. */
  predicate Changed(v: ActivityValue, w: ActivityValue)
  {
    v.activities != w.activities || v.paths != w.paths
  }

  /** Merging an activity into an existing record: its activity type and paths are
      added, and the record becomes dirty exactly when one of its sets grew. */
  function MergeExisting(v: ActivityValue, a: ActivityInfo): (w: ActivityValue)
    ensures w.activities == v.activities + {a.activity}
    ensures w.paths == v.paths + a.paths
    ensures w.isModified == (v.isModified || Changed(v, w))
    ensures w.activityId == v.activityId && w.mentor == v.mentor && w.rootMentor == v.rootMentor
  {
    var added := a.activity !in v.activities;
    var activities := if added then v.activities + {a.activity} else v.activities;
    var newPaths := a.paths - v.paths;
    var paths := if |newPaths| > 0 then v.paths + newPaths else v.paths;
    v.(activities := activities, paths := paths, isModified := v.isModified || added || |newPaths| > 0)
  }

  /** The record created for a new key: the activity's type and paths, the member's
      roles, dirty, and the default item id 0. */
  function NewValue(m: Member, a: ActivityInfo): ActivityValue
  {
    ActivityValue(0, m.mentor, m.rootMentor, a.paths, {a.activity}, true)
  }

  /** The null-safe "holds this ID in either role" scan test, used for new keys. */
  function HoldsIdTest(id: int): Member -> Tri
  {
    Total((x: Member) => HoldsId(x, id))
  }

  /** `d2` extends `d1`: no key disappears, each record keeps its identity fields,
      its sets only grow and its dirty flag is never cleared. */
  predicate Extends(d1: Dict, d2: Dict)
  {
    forall k :: k in d1 ==>
      && k in d2
      && d2[k].activityId == d1[k].activityId
      && d2[k].mentor == d1[k].mentor
      && d2[k].rootMentor == d1[k].rootMentor
      && d1[k].activities <= d2[k].activities
      && d1[k].paths <= d2[k].paths
      && (d1[k].isModified ==> d2[k].isModified)
  }

  /** In `d2`, a record is dirty exactly when it is new since `d1`, was already dirty,
      or its content differs from what it was in `d1`. */
  predicate DirtyTracksChange(d1: Dict, d2: Dict)
  {
    forall k :: k in d2 ==>
      d2[k].isModified == (k !in d1 || d1[k].isModified || Changed(d1[k], d2[k]))
  }

  /** A valid step of the run: extension with faithful dirty tracking. */
  predicate Evolves(d1: Dict, d2: Dict)
  {
    Extends(d1, d2) && DirtyTracksChange(d1, d2)
  }

  /** `UpdateDictionary`: resolve the activity; if unresolved, nothing changes; if its
      key exists, merge into that record; otherwise insert a new dirty record for the
      first member holding the user ID. Only the activity's key is touched. */
  function UpdateDictionary(d: Dict, a: ActivityInfo, members: seq<Member>): (r: Result<Dict, Fault>)
    ensures r.Failure? <==> CheckActivityUser(a, members).Failure?
    ensures CheckActivityUser(a, members) == Success(Unresolved) ==> r == Success(d)
    ensures CheckActivityUser(a, members).Success? && CheckActivityUser(a, members).value.Resolved? ==>
              var b := CheckActivityUser(a, members).value.activity;
              var k := KeyOf(b);
              && r.Success?
              && r.value.Keys == d.Keys + {k}
              && (forall k' :: k' in d && k' != k ==> r.value[k'] == d[k'])
              && (k in d ==> r.value[k] == MergeExisting(d[k], b))
              && (k !in d ==> exists i :: && 0 <= i < |members| && HoldsId(members[i], b.userId.value)
                                          && (forall j :: 0 <= j < i ==> !HoldsId(members[j], b.userId.value))
                                          && r.value[k] == NewValue(members[i], b))
    ensures r.Success? ==> Evolves(d, r.value)
  {
    match CheckActivityUser(a, members)
    case Failure(e) => Failure(e)
    case Success(Unresolved) => Success(d)
    case Success(Resolved(b)) =>
      var key := KeyOf(b);
      if key in d then
        Success(d[key := MergeExisting(d[key], b)])
      else
        TotalScanFindsFirst(members, (x: Member) => HoldsId(x, b.userId.value));
        match FirstOrDefault(members, HoldsIdTest(b.userId.value))
        case Success(Some(i)) => Success(d[key := NewValue(members[i], b)])
        case _ => Success(d)
  }

  /** The activity's type and paths are recorded under its key. */
  predicate Absorbed(d: Dict, b: ActivityInfo)
  {
    && b.userId.Some?
    && KeyOf(b) in d && b.activity in d[KeyOf(b)].activities && b.paths <= d[KeyOf(b)].paths
  }

  /** If the activity resolves, what it resolves to is recorded in `d`. */
  predicate AbsorbsResolved(d: Dict, a: ActivityInfo, members: seq<Member>)
  {
    CheckActivityUser(a, members).Success? && CheckActivityUser(a, members).value.Resolved? ==>
      Absorbed(d, CheckActivityUser(a, members).value.activity)
  }

  /** What the activity resolves to, if it resolves without an exception. */
  function ResolvedActivity(a: ActivityInfo, members: seq<Member>): Option<ActivityInfo>
  {
    match CheckActivityUser(a, members)
    case Success(Resolved(b)) => Some(b)
    case _ => None
  }

  /** The resolved forms of the activities. */
  function Brought(acts: seq<ActivityInfo>, members: seq<Member>): (bs: set<ActivityInfo>)
    decreases |acts|
    ensures forall b :: b in bs <==> exists i :: 0 <= i < |acts| && ResolvedActivity(acts[i], members) == Some(b)
    ensures forall b :: b in bs ==> b.userId.Some?
  {
    if |acts| == 0 then {}
    else
      var rest := Brought(acts[1..], members);
      assert forall i :: 0 < i < |acts| ==> acts[i] == acts[1..][i - 1];
      assert forall i :: 0 <= i < |acts| - 1 ==> acts[1..][i] == acts[i + 1];
      match ResolvedActivity(acts[0], members)
      case Some(b) => {b} + rest
      case None => rest
  }

  /** The activity is keyed `k`. */
  predicate KeyedAt(b: ActivityInfo, k: ActivityKey)
  {
    b.userId.Some? && KeyOf(b) == k
  }

  /** Nothing in `r` is new with respect to `d` unless one of the activities `bs`
      brought it: every key, activity type and path of `r` is in `d` under the same key
      or belongs to an activity of `bs` with that key. */
  predicate OnlyFrom(d: Dict, r: Dict, bs: set<ActivityInfo>)
  {
    forall k :: k in r ==>
      && (k in d || exists b :: b in bs && KeyedAt(b, k))
      && (forall x :: x in r[k].activities ==>
            (k in d && x in d[k].activities) || exists b :: b in bs && KeyedAt(b, k) && b.activity == x)
      && (forall p :: p in r[k].paths ==>
            (k in d && p in d[k].paths) || exists b :: b in bs && KeyedAt(b, k) && p in b.paths)
  }

  /** One update brings in nothing but the resolved activity. */
  lemma UpdateBringsOnly(d: Dict, a: ActivityInfo, members: seq<Member>)
    requires UpdateDictionary(d, a, members).Success?
    ensures OnlyFrom(d, UpdateDictionary(d, a, members).value, Brought([a], members))
  {
    assert [a][1..] == [];
    var r := UpdateDictionary(d, a, members).value;
    match CheckActivityUser(a, members)
    case Success(Unresolved) =>
    case Success(Resolved(b)) =>
      assert ResolvedActivity(a, members) == Some(b);
      assert b in Brought([a], members) && KeyedAt(b, KeyOf(b));
  }

  /** What two steps bring in is what either step brings in. */
  lemma OnlyFromTransitive(d1: Dict, d2: Dict, d3: Dict, bs1: set<ActivityInfo>, bs2: set<ActivityInfo>)
    requires OnlyFrom(d1, d2, bs1) && OnlyFrom(d2, d3, bs2)
    ensures OnlyFrom(d1, d3, bs1 + bs2)
  {
  }

  /** The foreach of `Ensure`: update the dictionary with each activity in order; the
      first exception aborts the run. On success every resolved activity has been
      recorded under its key. */
  function Apply(d: Dict, acts: seq<ActivityInfo>, members: seq<Member>): (r: Result<Dict, Fault>)
    decreases |acts|
    ensures r.Failure? <==> exists i :: 0 <= i < |acts| && CheckActivityUser(acts[i], members).Failure?
    ensures r.Success? ==> Evolves(d, r.value)
    ensures r.Success? ==> forall i :: 0 <= i < |acts| ==> AbsorbsResolved(r.value, acts[i], members)
  {
    if |acts| == 0 then Success(d)
    else
      match UpdateDictionary(d, acts[0], members)
      case Failure(e) => Failure(e)
      case Success(next) =>
        match Apply(next, acts[1..], members)
        case Failure(e) =>
          assert forall i :: 0 <= i < |acts| - 1 ==> acts[1..][i] == acts[i + 1];
          Failure(e)
        case Success(last) =>
          ApplyStep(d, next, last, acts, members);
          Success(last)
  }

  /** One step of the fold: the first update followed by the fold of the rest keeps
      the fold's guarantees. */
  lemma ApplyStep(d: Dict, next: Dict, last: Dict, acts: seq<ActivityInfo>, members: seq<Member>)
    requires |acts| > 0 && UpdateDictionary(d, acts[0], members) == Success(next)
    requires Evolves(next, last)
    requires forall i :: 0 <= i < |acts[1..]| ==> AbsorbsResolved(last, acts[1..][i], members)
    ensures Evolves(d, last)
    ensures forall i :: 0 <= i < |acts| ==> AbsorbsResolved(last, acts[i], members)
  {
    EvolvesTransitive(d, next, last);
    AbsorbedStep(d, next, last, acts, members);
  }

  /** The first activity is absorbed by its update and stays absorbed. */
  lemma AbsorbedStep(d: Dict, next: Dict, last: Dict, acts: seq<ActivityInfo>, members: seq<Member>)
    requires |acts| > 0 && UpdateDictionary(d, acts[0], members) == Success(next)
    requires Extends(next, last)
    requires forall i :: 0 <= i < |acts[1..]| ==> AbsorbsResolved(last, acts[1..][i], members)
    ensures forall i :: 0 <= i < |acts| ==> AbsorbsResolved(last, acts[i], members)
  {
    assert AbsorbsResolved(next, acts[0], members);
    assert forall i :: 0 < i < |acts| ==> acts[i] == acts[1..][i - 1];
  }

  /** The resolved forms of a list are those of its head and those of its tail. */
  lemma BroughtStep(acts: seq<ActivityInfo>, members: seq<Member>)
    requires |acts| > 0
    ensures Brought(acts, members) == Brought([acts[0]], members) + Brought(acts[1..], members)
  {
    assert [acts[0]][1..] == [];
  }

  /** The fold adds nothing but what the resolved activities bring: every key, activity
      type and path of the result was already in the dictionary under that key or
      belongs to a resolved activity with that key. */
  lemma {:induction false} ApplyAddsOnlyResolved(d: Dict, acts: seq<ActivityInfo>, members: seq<Member>)
    requires Apply(d, acts, members).Success?
    ensures OnlyFrom(d, Apply(d, acts, members).value, Brought(acts, members))
    decreases |acts|
  {
    if |acts| == 0 {
      assert Apply(d, acts, members) == Success(d);
    } else {
      var next := UpdateDictionary(d, acts[0], members).value;
      ApplyCons(d, next, acts, members);
      ApplyAddsOnlyResolved(next, acts[1..], members);
      BroughtStep(acts, members);
      UpdateBringsOnly(d, acts[0], members);
      OnlyFromTransitive(d, next, Apply(d, acts, members).value, Brought([acts[0]], members), Brought(acts[1..], members));
    }
  }

  /** `Ensure`: seed the dictionary, then fold every activity into it. It throws iff
      seeding meets a duplicate key or some activity's resolution throws; otherwise
      every resolved activity is recorded. */
  function Ensure(sps: seq<SpActivity>, acts: seq<ActivityInfo>, members: seq<Member>): (r: Result<Dict, Fault>)
    ensures r.Failure? <==>
              || !SeedKeysDistinct(sps)
              || exists i :: 0 <= i < |acts| && CheckActivityUser(acts[i], members).Failure?
    ensures r.Success? ==> forall i :: 0 <= i < |acts| ==> AbsorbsResolved(r.value, acts[i], members)
  {
    match InitDictionary(sps)
    case Failure(e) => Failure(e)
    case Success(d) => Apply(d, acts, members)
  }

  /** The fold of no activities leaves the dictionary as it is. */
  lemma ApplyNil(d: Dict, members: seq<Member>)
    ensures Apply(d, [], members) == Success(d)
  {
  }

  /** The fold continues from the first update. */
  lemma ApplyCons(d: Dict, next: Dict, acts: seq<ActivityInfo>, members: seq<Member>)
    requires |acts| > 0 && UpdateDictionary(d, acts[0], members) == Success(next)
    ensures Apply(d, acts, members) == Apply(next, acts[1..], members)
  {
  }

  /** A run starts the fold from the seeded dictionary. */
  lemma EnsureSeeded(sps: seq<SpActivity>, d: Dict, acts: seq<ActivityInfo>, members: seq<Member>)
    requires InitDictionary(sps) == Success(d)
    ensures Ensure(sps, acts, members) == Apply(d, acts, members)
  {
  }

  lemma EvolvesTransitive(d1: Dict, d2: Dict, d3: Dict)
    requires Evolves(d1, d2) && Evolves(d2, d3)
    ensures Evolves(d1, d3)
  {
    forall k | k in d3
      ensures d3[k].isModified == (k !in d1 || d1[k].isModified || Changed(d1[k], d3[k]))
    {
      if k in d1 {
        assert Changed(d1[k], d3[k]) <==> Changed(d1[k], d2[k]) || Changed(d2[k], d3[k]);
      }
    }
  }

  /** A run adds to the persisted records nothing but what the resolved activities
      bring, so the change set holds no record, type or path that no activity caused. */
  lemma EnsureAddsOnlyResolved(sps: seq<SpActivity>, acts: seq<ActivityInfo>, members: seq<Member>)
    requires Ensure(sps, acts, members).Success?
    ensures InitDictionary(sps).Success?
    ensures OnlyFrom(InitDictionary(sps).value, Ensure(sps, acts, members).value, Brought(acts, members))
  {
    var d := InitDictionary(sps).value;
    EnsureSeeded(sps, d, acts, members);
    ApplyAddsOnlyResolved(d, acts, members);
  }

  /** A record that is new or whose sets grew owes that to a resolved activity with
      its key. */
  lemma ChangeIsOwed(d: Dict, r: Dict, acts: seq<ActivityInfo>, members: seq<Member>, k: ActivityKey)
    requires OnlyFrom(d, r, Brought(acts, members)) && Extends(d, r)
    requires k in r && (k !in d || Changed(d[k], r[k]))
    ensures exists i :: 0 <= i < |acts| && ResolvedActivity(acts[i], members).Some?
                        && KeyedAt(ResolvedActivity(acts[i], members).value, k)
  {
    var bs := Brought(acts, members);
    var b: ActivityInfo;
    if k !in d {
      b :| b in bs && KeyedAt(b, k);
    } else if r[k].activities != d[k].activities {
      var x :| x in r[k].activities && x !in d[k].activities;
      b :| b in bs && KeyedAt(b, k) && b.activity == x;
    } else {
      var p :| p in r[k].paths && p !in d[k].paths;
      b :| b in bs && KeyedAt(b, k) && p in b.paths;
    }
    var i :| 0 <= i < |acts| && ResolvedActivity(acts[i], members) == Some(b);
  }

  /** After a whole run, a record is dirty exactly when it was created in the run or
      its activity or path set differs from the persisted one; persisted records are
      never lost, their sets only grow, and they keep their item id and roles. */
  lemma EnsureMarksExactlyChanged(sps: seq<SpActivity>, acts: seq<ActivityInfo>, members: seq<Member>)
    requires Ensure(sps, acts, members).Success?
    ensures InitDictionary(sps).Success?
    ensures var seed := InitDictionary(sps).value;
            var r := Ensure(sps, acts, members).value;
            && Extends(seed, r)
            && forall k :: k in r ==> (r[k].isModified <==> k !in seed || Changed(seed[k], r[k]))
  {
  }

  /** Applying an activity a second time, or applying the activity as it was written
      back by resolution, changes nothing more. */
  lemma {:induction false} UpdateIdempotent(d: Dict, a: ActivityInfo, members: seq<Member>)
    requires CheckActivityUser(a, members).Success?
    ensures var d1 := UpdateDictionary(d, a, members).value;
            UpdateDictionary(d1, a, members) == Success(d1)
    ensures CheckActivityUser(a, members).value.Resolved? ==>
              var d1 := UpdateDictionary(d, a, members).value;
              var b := CheckActivityUser(a, members).value.activity;
              UpdateDictionary(d1, b, members) == Success(d1)
  {
    var d1 := UpdateDictionary(d, a, members).value;
    match CheckActivityUser(a, members)
    case Success(Unresolved) =>
    case Success(Resolved(b)) =>
      WriteBackIsStable(a, members);
      var k := KeyOf(b);
      assert k in d1 && b.activity in d1[k].activities && b.paths <= d1[k].paths;
      MergeAbsorbs(d1, k, b);
      ReapplyResolved(d1, a, b, members);
      ReapplyResolved(d1, b, b, members);
  }

  /** Merging an activity already contained in a record leaves the dictionary as it is. */
  lemma MergeAbsorbs(d: Dict, k: ActivityKey, b: ActivityInfo)
    requires k in d && b.activity in d[k].activities && b.paths <= d[k].paths
    ensures d[k := MergeExisting(d[k], b)] == d
  {
    assert MergeExisting(d[k], b) == d[k];
  }

  /** An activity resolving to `b`, whose key is present and absorbs it, changes nothing. */
  lemma ReapplyResolved(d: Dict, a: ActivityInfo, b: ActivityInfo, members: seq<Member>)
    requires CheckActivityUser(a, members) == Success(Resolved(b))
    requires KeyOf(b) in d && d[KeyOf(b) := MergeExisting(d[KeyOf(b)], b)] == d
    ensures UpdateDictionary(d, a, members) == Success(d)
  {
  }
}

=== FILE: lookup.dfy ===
/** LINQ scans whose predicate may throw. A predicate that reads a member's Mentor ID
    without a null check throws on a member whose Mentor is null; the scan then stops
    with that exception. */
module Lookup {
  import opened Wrappers
  import opened ActivityModel

  /** The outcome of evaluating a predicate that may dereference null. */
  datatype Tri = Yes | No | Throws

  /** `xs.Skip(from).FirstOrDefault(test)` as an index: the first element the
      predicate accepts, `None` when it rejects all, or the exception of the first
      element on which it throws. Elements are visited strictly in order. */
  function FirstFrom<T>(xs: seq<T>, test: T -> Tri, from: nat): (r: Result<Option<nat>, Fault>)
    requires from <= |xs|
    decreases |xs| - from
    ensures r == Success(None) <==> forall i :: from <= i < |xs| ==> test(xs[i]) == No
    ensures r.Success? && r.value.Some? ==>
              && from <= r.value.value < |xs|
              && test(xs[r.value.value]) == Yes
              && forall i :: from <= i < r.value.value ==> test(xs[i]) == No
    ensures r.Failure? ==>
              && r.error == NullReference
              && exists k :: from <= k < |xs| && test(xs[k]) == Throws
                                && forall i :: from <= i < k ==> test(xs[i]) == No
  {
    if from == |xs| then Success(None)
    else
      match test(xs[from])
      case Yes => Success(Some(from))
      case Throws => Failure(NullReference)
      case No => FirstFrom(xs, test, from + 1)
  }

  /** `xs.FirstOrDefault(test)`, as the index of the element found. */
  function FirstOrDefault<T>(xs: seq<T>, test: T -> Tri): Result<Option<nat>, Fault>
  {
    FirstFrom(xs, test, 0)
  }

  /** `xs.Any(test)`: the same short-circuiting scan, reporting only whether an element was found. */
  function Any<T>(xs: seq<T>, test: T -> Tri): Result<bool, Fault>
  {
    match FirstOrDefault(xs, test)
    case Success(found) => Success(found.Some?)
    case Failure(e) => Failure(e)
  }

  /** A predicate that reads every reference null-safely never throws. */
  function Total<T>(p: T -> bool): T -> Tri
  {
    x => if p(x) then Yes else No
  }

  /** With a predicate that cannot throw, the scan finds the first element satisfying
      it, and finds nothing exactly when no element does. */
  lemma {:induction false} TotalScanFindsFirst<T>(xs: seq<T>, p: T -> bool)
    ensures FirstOrDefault(xs, Total(p)).Success?
    ensures FirstOrDefault(xs, Total(p)).value.None? <==> forall i :: 0 <= i < |xs| ==> !p(xs[i])
    ensures FirstOrDefault(xs, Total(p)).value.Some? ==>
              var k := FirstOrDefault(xs, Total(p)).value.value;
              k < |xs| && p(xs[k]) && forall i :: 0 <= i < k ==> !p(xs[i])
  {
    assert forall i :: 0 <= i < |xs| ==> (Total(p)(xs[i]) == No <==> !p(xs[i]));
  }
}

=== FILE: resolution.dfy ===
/** `CheckActivityUser` and `GetUserIdByEmail`: attributing an incoming activity to a
    directory member, either by the user ID it already carries or by its e-mail. */
module Resolution {
  import opened Wrappers
  import opened ActivityModel
  import opened Lookup
  import opened Directory

  /** Does the member hold the ID as mentor or, failing that, as root mentor? Neither
      role is null-checked, and evaluation is left to right with short-circuit: the root
      mentor is only dereferenced when the mentor exists and did not match. */
  function IdTest(id: int): Member -> Tri
  {
    (x: Member) =>
      if x.mentor.None? then Throws
      else if x.mentor.value.id == id then Yes
      else if x.rootMentor.None? then Throws
      else if x.rootMentor.value.id == id then Yes
      else No
  }

  /** The same test on e-mails; a null e-mail field equals no (non-null) e-mail. */
  function EmailTest(email: string): Member -> Tri
  {
    (x: Member) =>
      if x.mentor.None? then Throws
      else if x.mentor.value.email == Some(email) then Yes
      else if x.rootMentor.None? then Throws
      else if x.rootMentor.value.email == Some(email) then Yes
      else No
  }

  /** The member holds the ID in either role, read null-safely. */
  predicate HoldsId(x: Member, id: int)
  {
    IdOf(x.mentor) == Some(id) || IdOf(x.rootMentor) == Some(id)
  }

  /** The member holds a role whose user has the given e-mail. */
  predicate HoldsEmail(x: Member, email: string)
  {
    (x.mentor.Some? && x.mentor.value.email == Some(email))
    || (x.rootMentor.Some? && x.rootMentor.value.email == Some(email))
  }

  /** The member holds both roles, so neither null-dereferencing test can throw on it. */
  predicate BothRoles(x: Member)
  {
    x.mentor.Some? && x.rootMentor.Some?
  }

  /** Some member holds the user ID in either role. */
  predicate InDirectory(members: seq<Member>, id: int)
  {
    exists i :: 0 <= i < |members| && HoldsId(members[i], id)
  }

  /** Some member holds a role with the e-mail. */
  predicate EmailInDirectory(members: seq<Member>, email: string)
  {
    exists i :: 0 <= i < |members| && HoldsEmail(members[i], email)
  }

  /** `GetUserIdByEmail`: the first member whose mentor or root-mentor e-mail matches,
      scanning until a member lacking a role makes the predicate throw. The id returned
      is the mentor's ID, falling back to the root mentor's; since the scan dereferenced the
      member's Mentor, it is always the mentor's ID. */
  function GetUserIdByEmail(email: string, members: seq<Member>): (r: Result<Option<int>, Fault>)
    ensures r.Success? && r.value.None? ==> !EmailInDirectory(members, email)
    ensures r.Success? && r.value.Some? ==>
              exists k :: && 0 <= k < |members|
                          && members[k].mentor.Some? && members[k].mentor.value.id == r.value.value
                          && HoldsEmail(members[k], email)
                          && forall j :: 0 <= j < k ==> BothRoles(members[j]) && !HoldsEmail(members[j], email)
    ensures r.Failure? ==> exists k :: 0 <= k < |members| && !BothRoles(members[k])
  {
    match FirstOrDefault(members, EmailTest(email))
    case Failure(e) => Failure(e)
    case Success(None) => Success(None)
    case Success(Some(i)) =>
      var user := members[i];
      match user.mentor
      case Some(m) => Success(Some(m.id))
      case None =>
        match user.rootMentor
        case Some(rm) => Success(Some(rm.id))
        case None => Failure(NullReference)
  }

  /** The outcome of `CheckActivityUser` when it does not throw: the activity as
      resolved (with the user ID written back), or a miss. */
  datatype Resolution = Resolved(activity: ActivityInfo) | Unresolved

  /** `CheckActivityUser`. An activity carrying a user ID resolves iff a member holds
      that ID; otherwise it is resolved by e-mail and the member's ID is written back
      onto it; with neither it is unresolved. The null-dereferencing scans throw on the
      first member lacking a role that they reach. */
  function CheckActivityUser(a: ActivityInfo, members: seq<Member>): (r: Result<Resolution, Fault>)
    ensures r.Success? && r.value.Resolved? ==>
              var b := r.value.activity;
              && b.userId.Some?
              && b == a.(userId := b.userId)
              && (a.userId.Some? ==> b == a)
              && InDirectory(members, b.userId.value)
    ensures r.Success? && r.value.Unresolved? && a.userId.Some? ==> !InDirectory(members, a.userId.value)
    ensures r.Success? && r.value.Unresolved? && a.userId.None? && a.userEmail.Some? ==>
              !EmailInDirectory(members, a.userEmail.value)
    ensures a.userId.None? && a.userEmail.None? ==> r == Success(Unresolved)
    ensures r.Success? && r.value.Resolved? && a.userId.None? ==>
              a.userEmail.Some? && GetUserIdByEmail(a.userEmail.value, members) == Success(r.value.activity.userId)
    ensures r.Failure? ==> r.error == NullReference && exists k :: 0 <= k < |members| && !BothRoles(members[k])
  {
    match a.userId
    case Some(id) =>
      (match Any(members, IdTest(id))
       case Failure(e) => Failure(e)
       case Success(found) => Success(if found then Resolved(a) else Unresolved))
    case None =>
      match a.userEmail
      case None => Success(Unresolved)
      case Some(email) =>
        match GetUserIdByEmail(email, members)
        case Failure(e) => Failure(e)
        case Success(None) => Success(Unresolved)
        case Success(Some(id)) => Success(Resolved(a.(userId := Some(id))))
  }

  /** Over a directory in which every member holds both roles nothing throws, and
      resolution agrees with the null-safe reading: by ID iff some member holds the ID,
      by e-mail iff some member holds the e-mail. */
  lemma NullFreeResolution(a: ActivityInfo, members: seq<Member>)
    requires forall i :: 0 <= i < |members| ==> BothRoles(members[i])
    ensures CheckActivityUser(a, members).Success?
    ensures CheckActivityUser(a, members).value.Resolved? <==>
              if a.userId.Some? then InDirectory(members, a.userId.value)
              else a.userEmail.Some? && EmailInDirectory(members, a.userEmail.value)
  {
  }

  /** The user ID written back by an e-mail resolution resolves again by ID to the
      same activity: re-checking a resolved activity never throws and changes nothing. */
  lemma {:induction false} WriteBackIsStable(a: ActivityInfo, members: seq<Member>)
    requires CheckActivityUser(a, members).Success?
    requires CheckActivityUser(a, members).value.Resolved?
    ensures var b := CheckActivityUser(a, members).value.activity;
            CheckActivityUser(b, members) == Success(Resolved(b))
  {
    var b := CheckActivityUser(a, members).value.activity;
    if a.userId.None? {
      var email := a.userEmail.value;
      var id := b.userId.value;
      var k :| && 0 <= k < |members|
               && members[k].mentor.Some? && members[k].mentor.value.id == id
               && HoldsEmail(members[k], email)
               && forall j :: 0 <= j < k ==> BothRoles(members[j]) && !HoldsEmail(members[j], email);
      assert IdTest(id)(members[k]) == Yes;
    }
  }

  /** The e-mail example: mentor 1 (a@x), who is also root mentor, resolves an
      activity from a@x to user 1; an activity from nobody@x stays unresolved. */
  lemma EmailResolutionExample(date: DateTime)
    ensures var ms := [Member(Some(SPUser(1, Some("a@x"))), Some(SPUser(1, None)), [])];
            var a := ActivityInfo(None, Some("a@x"), date, Some("Dev"), {});
            var n := ActivityInfo(None, Some("nobody@x"), date, Some("Dev"), {});
            && CheckActivityUser(a, ms) == Success(Resolved(a.(userId := Some(1))))
            && CheckActivityUser(n, ms) == Success(Unresolved)
  {
    var ms := [Member(Some(SPUser(1, Some("a@x"))), Some(SPUser(1, None)), [])];
    assert EmailTest("a@x")(ms[0]) == Yes;
    assert EmailTest("nobody@x")(ms[0]) == No;
    assert FirstFrom(ms, EmailTest("nobody@x"), 1) == Success(None);
  }
}

=== FILE: sync_scenarios.dfy ===
/** Worked runs of the synchronisation core on small inputs. */
module SyncScenarios {
  import opened Wrappers
  import opened ActivityModel
  import opened Lookup
  import opened Directory
  import opened Resolution
  import opened Ledger
  import opened ChangeSet

  /** User 1 (mentor, e-mail a@x) with a persisted May 2024 record {Dev}/{Backend}.
      A May event repeating Dev/Backend changes nothing; a May event adding
      Mentoring/Frontend updates that record. The result is one dirty record with
      {Dev, Mentoring} and {Backend, Frontend}, to be updated, and nothing to insert. */
  lemma EndToEndUpdate(isNew: int -> bool)
    requires !isNew(7)
    ensures
      var u := SPUser(1, Some("a@x"));
      var ms := [Member(Some(u), None, [])];
      var sp := SpActivity(7, Some(u), None, 2024, 5, {Some("Dev")}, {"Backend"});
      var e1 := ActivityInfo(Some(1), None, DateTime(2024, 5, 10, 0), Some("Dev"), {"Backend"});
      var e2 := ActivityInfo(Some(1), None, DateTime(2024, 5, 20, 0), Some("Mentoring"), {"Frontend"});
      var key := ActivityKey(1, 2024, 5);
      var final := ActivityValue(7, Some(u), None, {"Backend", "Frontend"}, {Some("Dev"), Some("Mentoring")}, true);
      && Ensure([sp], [e1, e2], ms) == Success(map[key := final])
      && UpdateSpActivities(map[key := final], isNew)
           == ChangeSet(map[], map[key := SpActivity(7, Some(u), None, 2024, 5, final.activities, final.paths)])
  {
    var u := SPUser(1, Some("a@x"));
    var ms := [Member(Some(u), None, [])];
    var sp := SpActivity(7, Some(u), None, 2024, 5, {Some("Dev")}, {"Backend"});
    var e1 := ActivityInfo(Some(1), None, DateTime(2024, 5, 10, 0), Some("Dev"), {"Backend"});
    var e2 := ActivityInfo(Some(1), None, DateTime(2024, 5, 20, 0), Some("Mentoring"), {"Frontend"});
    var key := ActivityKey(1, 2024, 5);
    var seed := map[key := Seeded(sp)];
    assert SeedKey(sp) == key;
    assert InitDictionary([sp]) == Success(seed);
    assert IdTest(1)(ms[0]) == Yes;
    assert CheckActivityUser(e1, ms) == Success(Resolved(e1));
    assert CheckActivityUser(e2, ms) == Success(Resolved(e2));
    assert KeyOf(e1) == key && KeyOf(e2) == key;
    assert MergeExisting(seed[key], e1) == seed[key];
    assert seed[key := seed[key]] == seed;
    assert UpdateDictionary(seed, e1, ms) == Success(seed);
    var final := ActivityValue(7, Some(u), None, {"Backend", "Frontend"}, {Some("Dev"), Some("Mentoring")}, true);
    assert MergeExisting(seed[key], e2) == final;
    assert seed[key := final] == map[key := final];
    assert UpdateDictionary(seed, e2, ms) == Success(map[key := final]);
    assert [e1, e2][1..] == [e2];
    assert [e2][1..] == [];
    ApplyNil(map[key := final], ms);
    ApplyCons(seed, map[key := final], [e2], ms);
    ApplyCons(seed, seed, [e1, e2], ms);
    EnsureSeeded([sp], seed, [e1, e2], ms);
    var c := UpdateSpActivities(map[key := final], isNew);
    assert c.toInsert.Keys == {};
    assert c.toUpdate.Keys == {key};
  }

  /** The key asymmetry: a persisted record is keyed by its root mentor's ID, while an
      activity resolved by e-mail is keyed by its mentor's ID. When a persisted record's
      mentor and root mentor are different users, an activity of that mentor in the same
      month lands under a second key, and the run inserts a new record instead of
      updating the persisted one. The directory is the one `GetSpMembers` builds from one
      mentor item and one unrelated root-mentor item. */
  lemma SeedAndMergeKeysDiffer(isNew: int -> bool)
    requires isNew(0) && !isNew(7)
    ensures
      var mentor := SPUser(1, Some("a@x"));
      var root := SPUser(2, Some("b@x"));
      var ms := GetSpMembers([RoleEntry(Some(mentor), [])], [RoleEntry(Some(root), [])]);
      var sp := SpActivity(7, Some(mentor), Some(root), 2024, 5, {Some("Dev")}, {});
      var e := ActivityInfo(None, Some("a@x"), DateTime(2024, 5, 10, 0), Some("Dev"), {});
      && ms.Success?
      && Ensure([sp], [e], ms.value).Success?
      && Ensure([sp], [e], ms.value).value.Keys == {ActivityKey(2, 2024, 5), ActivityKey(1, 2024, 5)}
      && UpdateSpActivities(Ensure([sp], [e], ms.value).value, isNew).toInsert.Keys == {ActivityKey(1, 2024, 5)}
      && UpdateSpActivities(Ensure([sp], [e], ms.value).value, isNew).toUpdate.Keys == {}
  {
    var mentor := SPUser(1, Some("a@x"));
    var root := SPUser(2, Some("b@x"));
    var m0 := Member(Some(mentor), None, []);
    var ms := [m0, Member(None, Some(root), [])];
    assert MentorMembers([RoleEntry(Some(mentor), [])]) == [m0];
    assert SameMentorId(Some(root))(m0) == No;
    assert FirstFrom([m0], SameMentorId(Some(root)), 1) == Success(None);
    assert FirstOrDefault([m0], SameMentorId(Some(root))) == Success(None);
    assert [m0] + [Member(None, Some(root), [])] == ms;
    assert AddRootMentor([m0], RoleEntry(Some(root), [])) == Success(ms);
    assert [RoleEntry(Some(root), [])][1..] == [];
    assert AddRootMentors(ms, []) == Success(ms);
    assert AddRootMentors([m0], [RoleEntry(Some(root), [])]) == Success(ms);
    assert GetSpMembers([RoleEntry(Some(mentor), [])], [RoleEntry(Some(root), [])]) == Success(ms);
    var sp := SpActivity(7, Some(mentor), Some(root), 2024, 5, {Some("Dev")}, {});
    var e := ActivityInfo(None, Some("a@x"), DateTime(2024, 5, 10, 0), Some("Dev"), {});
    var seed := map[ActivityKey(2, 2024, 5) := Seeded(sp)];
    assert InitDictionary([sp]) == Success(seed);
    assert EmailTest("a@x")(ms[0]) == Yes;
    var b := e.(userId := Some(1));
    assert CheckActivityUser(e, ms) == Success(Resolved(b));
    assert HoldsIdTest(1)(ms[0]) == Yes;
    var r := seed[ActivityKey(1, 2024, 5) := NewValue(ms[0], b)];
    assert UpdateDictionary(seed, e, ms) == Success(r);
    assert [e][1..] == [];
    ApplyNil(r, ms);
    ApplyCons(seed, r, [e], ms);
    EnsureSeeded([sp], seed, [e], ms);
    assert Ensure([sp], [e], ms) == Success(r);
    assert DirtyKeys(r) == {ActivityKey(1, 2024, 5)};
  }
}

=== FILE: text_split.dfy ===
/** `String.Split(separator, StringSplitOptions.RemoveEmptyEntries)` for a single
    separator character, and its inverse `Join`. */
module TextSplit {

  /** The length of the longest prefix of `s` free of the separator. */
  function TokenLength(s: string, sep: char): (n: nat)
    ensures n <= |s|
    ensures forall i :: 0 <= i < n ==> s[i] != sep
    ensures n < |s| ==> s[n] == sep
  {
    if |s| == 0 || s[0] == sep then 0 else 1 + TokenLength(s[1..], sep)
  }

  /** The separator-free runs of `s`, in order, empty runs dropped. */
  function Split(s: string, sep: char): (r: seq<string>)
    decreases |s|
    ensures forall i :: 0 <= i < |r| ==> |r[i]| > 0 && sep !in r[i]
  {
    if |s| == 0 then []
    else if s[0] == sep then Split(s[1..], sep)
    else
      var n := TokenLength(s, sep);
      [s[..n]] + Split(s[n..], sep)
  }

  /** The pieces glued back with one separator between neighbours. */
  function Join(pieces: seq<string>, sep: char): string
  {
    if |pieces| == 0 then []
    else if |pieces| == 1 then pieces[0]
    else pieces[0] + [sep] + Join(pieces[1..], sep)
  }

  /** `s` with every separator removed. */
  function WithoutSeparators(s: string, sep: char): string
  {
    if |s| == 0 then [] else (if s[0] == sep then [] else [s[0]]) + WithoutSeparators(s[1..], sep)
  }

  /** The concatenation of all pieces. */
  function Concat(pieces: seq<string>): string
  {
    if |pieces| == 0 then [] else pieces[0] + Concat(pieces[1..])
  }

  lemma {:induction false} WithoutSeparatorsAppend(a: string, b: string, sep: char)
    ensures WithoutSeparators(a + b, sep) == WithoutSeparators(a, sep) + WithoutSeparators(b, sep)
  {
    if |a| > 0 {
      assert (a + b)[1..] == a[1..] + b;
      WithoutSeparatorsAppend(a[1..], b, sep);
    } else {
      assert a + b == b;
    }
  }

  lemma {:induction false} WithoutSeparatorsOfFree(a: string, sep: char)
    requires sep !in a
    ensures WithoutSeparators(a, sep) == a
  {
    if |a| > 0 {
      assert a[0] in a;
      WithoutSeparatorsOfFree(a[1..], sep);
      assert [a[0]] + a[1..] == a;
    }
  }

  /** Splitting loses nothing but separators: the pieces, concatenated, are the text
      with its separators removed. */
  lemma {:induction false} SplitKeepsText(s: string, sep: char)
    ensures Concat(Split(s, sep)) == WithoutSeparators(s, sep)
    decreases |s|
  {
    if |s| == 0 {
    } else if s[0] == sep {
      SplitKeepsText(s[1..], sep);
    } else {
      var n := TokenLength(s, sep);
      SplitKeepsText(s[n..], sep);
      assert s == s[..n] + s[n..];
      WithoutSeparatorsAppend(s[..n], s[n..], sep);
      assert forall c :: c in s[..n] ==> c != sep;
      WithoutSeparatorsOfFree(s[..n], sep);
      var r := Split(s, sep);
      assert r == [s[..n]] + Split(s[n..], sep);
      assert r[1..] == Split(s[n..], sep);
    }
  }

  /** Splitting a joined list of non-empty, separator-free pieces gives the pieces back. */
  lemma {:induction false} SplitJoinRoundTrip(pieces: seq<string>, sep: char)
    requires forall i :: 0 <= i < |pieces| ==> |pieces[i]| > 0 && sep !in pieces[i]
    ensures Split(Join(pieces, sep), sep) == pieces
    decreases |pieces|
  {
    if |pieces| == 0 {
    } else {
      var p := pieces[0];
      var rest := if |pieces| == 1 then [] else [sep] + Join(pieces[1..], sep);
      var s := p + rest;
      assert s == Join(pieces, sep);
      assert p[0] in p;
      assert s[0] == p[0];
      TokenOfPrefix(p, rest, sep);
      assert s[..|p|] == p && s[|p|..] == rest;
      if |pieces| == 1 {
        assert Split(rest, sep) == [];
      } else {
        SplitJoinRoundTrip(pieces[1..], sep);
        assert rest[0] == sep && rest[1..] == Join(pieces[1..], sep);
        assert Split(rest, sep) == pieces[1..];
      }
      assert Split(s, sep) == [p] + pieces[1..];
    }
  }

  lemma {:induction false} TokenOfPrefix(p: string, rest: string, sep: char)
    requires sep !in p
    requires |rest| == 0 || rest[0] == sep
    ensures TokenLength(p + rest, sep) == |p|
  {
    if |p| > 0 {
      assert p[0] in p;
      assert (p + rest)[1..] == p[1..] + rest;
      TokenOfPrefix(p[1..], rest, sep);
    } else {
      assert p + rest == rest;
    }
  }

  /** A value without separators is a single piece. */
  lemma SplitSeparatorFree(s: string, sep: char)
    requires |s| > 0 && sep !in s
    ensures Split(s, sep) == [s]
  {
    TokenOfPrefix(s, [], sep);
    assert s + [] == s;
    assert s[0] in s;
  }

  /** The first token of `a + [sep] + b`, for `a` not starting with the separator, is
      the first token of `a`, and what follows it is the rest of `a`, the separator and `b`. */
  lemma TokenBeforeCut(a: string, b: string, sep: char)
    requires |a| > 0 && a[0] != sep
    ensures var n := TokenLength(a, sep);
            && TokenLength(a + [sep] + b, sep) == n
            && (a + [sep] + b)[..n] == a[..n]
            && (a + [sep] + b)[n..] == a[n..] + [sep] + b
  {
    var n := TokenLength(a, sep);
    assert forall i :: 0 <= i < n ==> a[i] == a[..n][i];
    assert a == a[..n] + a[n..];
    TokenOfPrefix(a[..n], a[n..] + [sep] + b, sep);
    assert a + [sep] + b == a[..n] + (a[n..] + [sep] + b);
  }

  /** A separator cuts the value: what lies on either side is split independently, so
      doubled, leading and trailing separators only ever produce empty entries, which
      are dropped. */
  lemma {:induction false} SplitAtSeparator(a: string, b: string, sep: char)
    ensures Split(a + [sep] + b, sep) == Split(a, sep) + Split(b, sep)
    decreases |a|
  {
    var s := a + [sep] + b;
    if |a| == 0 {
      assert s[1..] == b;
    } else if a[0] == sep {
      assert s[1..] == a[1..] + [sep] + b;
      SplitAtSeparator(a[1..], b, sep);
    } else {
      var n := TokenLength(a, sep);
      TokenBeforeCut(a, b, sep);
      SplitAtSeparator(a[n..], b, sep);
      calc {
        Split(s, sep);
        [a[..n]] + Split(a[n..] + [sep] + b, sep);
        [a[..n]] + (Split(a[n..], sep) + Split(b, sep));
        ([a[..n]] + Split(a[n..], sep)) + Split(b, sep);
      }
    }
  }
}

=== FILE: timer_job.dfy ===
/** The list transforms of the timer job: repository configuration, commits to
    activities, mentoring-calendar events to activities, and the combined list. */
module TimerJob {
  import opened Wrappers
  import opened ActivityModel
  import opened TextSplit
  import opened EmailDedupe

  /** A GitLab commit: author e-mail (null when absent from the JSON) and its date text. */
  datatype Commit = Commit(authorEmail: Option<string>, date: string)

  /** A GitLab branch and the commits fetched for it. */
  datatype Branch = Branch(name: Option<string>, commits: seq<Commit>)

  /** A configured repository: host, project id and activity-type label (all null when
      the configuration value was not a string), and the branches fetched for it. */
  datatype Repository = Repository(
    host: Option<string>,
    projectId: Option<string>,
    activity: Option<string>,
    branches: seq<Branch>)

  /** An item of the Configurations list: its Key and Value fields as strings, null
      when the field does not hold a string. */
  datatype ConfigItem = ConfigItem(key: Option<string>, value: Option<string>)

  /** The Employee column of a calendar item, in the states that decide how reading
      the employee's e-mail ends. */
  datatype EmployeeCell =
    | NoField                           // the item has no Employee field: the read is skipped
    | EmptyValue                        // the field exists but the item holds no value in it
    | NotAUser                          // the value does not convert to a user value
    | UserValue(user: Option<SPUser>)   // a user value, whose User may be null

  /** An item of the mentoring calendar: start and end (null when not a DateTime) and
      its Employee column. */
  datatype CalendarEvent = CalendarEvent(
    startTime: Option<DateTime>,
    endTime: Option<DateTime>,
    employee: EmployeeCell)

  // ---------------------------------------------------------------------------
  // GetConfigRepositories

  /** The repository read from one configuration value: fields 0, 1 and 2 of the split
      value are Host, ProjectId and Activity. A null value gives an all-null repository;
      a value with fewer than three non-empty fields throws. */
  function RepositoryFromValue(value: Option<string>, sep: char): (r: Result<Repository, Fault>)
    ensures value.None? ==> r == Success(Repository(None, None, None, []))
    ensures value.Some? ==> (r.Failure? <==> |Split(value.value, sep)| < 3)
    ensures r.Failure? ==> r.error == IndexOutOfRange
    ensures value.Some? && r.Success? ==>
              && r.value.host.Some? && r.value.projectId.Some? && r.value.activity.Some?
              && Split(value.value, sep)[..3] == [r.value.host.value, r.value.projectId.value, r.value.activity.value]
              && r.value.branches == []
  {
    match value
    case None => Success(Repository(None, None, None, []))
    case Some(v) =>
      var str := Split(v, sep);
      if |str| < 3 then Failure(IndexOutOfRange)
      else Success(Repository(Some(str[0]), Some(str[1]), Some(str[2]), []))
  }

  /** A value written as `host<sep>project<sep>activity` yields exactly those fields. */
  lemma ConfigValueRoundTrip(host: string, project: string, activity: string, sep: char)
    requires |host| > 0 && |project| > 0 && |activity| > 0
    requires sep !in host && sep !in project && sep !in activity
    ensures RepositoryFromValue(Some(Join([host, project, activity], sep)), sep)
              == Success(Repository(Some(host), Some(project), Some(activity), []))
  {
    SplitJoinRoundTrip([host, project, activity], sep);
  }

  /** The items whose Key is the GitLab repository key, in list order. */
  function ItemsWithKey(items: seq<ConfigItem>, repoKey: string): (r: seq<ConfigItem>)
    ensures forall x :: x in r <==> x in items && x.key == Some(repoKey)
    ensures |r| <= |items|
  {
    if |items| == 0 then []
    else (if items[0].key == Some(repoKey) then [items[0]] else []) + ItemsWithKey(items[1..], repoKey)
  }

  /** The filter works item by item: it keeps the order and the repetitions of the
      matching items. */
  lemma {:induction false} ItemsWithKeyAppend(a: seq<ConfigItem>, b: seq<ConfigItem>, repoKey: string)
    ensures ItemsWithKey(a + b, repoKey) == ItemsWithKey(a, repoKey) + ItemsWithKey(b, repoKey)
    decreases |a|
  {
    if |a| == 0 {
      assert a + b == b;
    } else {
      assert (a + b)[0] == a[0];
      assert (a + b)[1..] == a[1..] + b;
      ItemsWithKeyAppend(a[1..], b, repoKey);
    }
  }

  /** `GetConfigRepositories` once the list items are read: one repository per item
      keyed as a GitLab repository, in order; the first malformed value aborts. */
  function GetConfigRepositories(items: seq<ConfigItem>, repoKey: string, sep: char): (r: Result<seq<Repository>, Fault>)
    ensures r.Success? ==>
              var matching := ItemsWithKey(items, repoKey);
              && |r.value| == |matching|
              && forall i :: 0 <= i < |r.value| ==> RepositoryFromValue(matching[i].value, sep) == Success(r.value[i])
    ensures r.Failure? <==>
              exists x :: x in items && x.key == Some(repoKey) && RepositoryFromValue(x.value, sep).Failure?
  {
    if |items| == 0 then Success([])
    else
      assert forall x :: x in items <==> x == items[0] || x in items[1..];
      var rest := GetConfigRepositories(items[1..], repoKey, sep);
      if items[0].key == Some(repoKey) then
        assert ItemsWithKey(items, repoKey) == [items[0]] + ItemsWithKey(items[1..], repoKey);
        match RepositoryFromValue(items[0].value, sep)
        case Failure(e) => Failure(e)
        case Success(repo) =>
          match rest
          case Failure(e) => Failure(e)
          case Success(repos) => Success([repo] + repos)
      else
        assert ItemsWithKey(items, repoKey) == ItemsWithKey(items[1..], repoKey);
        rest
  }

  // ---------------------------------------------------------------------------
  // CreateRepoActivities

  /** A commit together with the activity label of the repository it came from. */
  datatype CommitSource = CommitSource(repoLabel: Option<string>, commit: Commit)

  /** The commits of the branches, in order, each tagged with the repository label. */
  function BranchSources(repoLabel: Option<string>, branches: seq<Branch>): seq<CommitSource>
  {
    if |branches| == 0 then []
    else
      var commits := branches[0].commits;
      seq(|commits|, i requires 0 <= i < |commits| => CommitSource(repoLabel, commits[i]))
        + BranchSources(repoLabel, branches[1..])
  }

  /** The two nested foreach loops of `CreateRepoActivities`: every commit of every
      branch of every repository, in order. */
  function CommitSources(repos: seq<Repository>): seq<CommitSource>
  {
    if |repos| == 0 then []
    else BranchSources(repos[0].activity, repos[0].branches) + CommitSources(repos[1..])
  }

  /** The number of commits over all branches. */
  function BranchCommitCount(branches: seq<Branch>): nat
  {
    if |branches| == 0 then 0 else |branches[0].commits| + BranchCommitCount(branches[1..])
  }

  /** The number of commits over all branches of all repositories. */
  function CommitCount(repos: seq<Repository>): nat
  {
    if |repos| == 0 then 0 else BranchCommitCount(repos[0].branches) + CommitCount(repos[1..])
  }

  /** The source is a commit of one of the branches, tagged with the label. */
  predicate FromBranches(x: CommitSource, repoLabel: Option<string>, branches: seq<Branch>)
  {
    exists b, c :: 0 <= b < |branches| && 0 <= c < |branches[b].commits|
                   && x == CommitSource(repoLabel, branches[b].commits[c])
  }

  /** The source is a commit of one of the repositories' branches, tagged with that
      repository's label. */
  predicate FromRepositories(x: CommitSource, repos: seq<Repository>)
  {
    exists r :: 0 <= r < |repos| && FromBranches(x, repos[r].activity, repos[r].branches)
  }

  /** Every entry of the branch sources is a commit of one of the branches. */
  lemma {:induction false} BranchSourcesSound(repoLabel: Option<string>, branches: seq<Branch>)
    ensures forall k :: 0 <= k < |BranchSources(repoLabel, branches)| ==>
              FromBranches(BranchSources(repoLabel, branches)[k], repoLabel, branches)
    decreases |branches|
  {
    if |branches| > 0 {
      BranchSourcesSound(repoLabel, branches[1..]);
      var commits := branches[0].commits;
      var head := seq(|commits|, i requires 0 <= i < |commits| => CommitSource(repoLabel, commits[i]));
      var tail := BranchSources(repoLabel, branches[1..]);
      assert BranchSources(repoLabel, branches) == head + tail;
      forall k | 0 <= k < |head + tail|
        ensures FromBranches((head + tail)[k], repoLabel, branches)
      {
        if k < |head| {
          assert (head + tail)[k] == CommitSource(repoLabel, branches[0].commits[k]);
        } else {
          assert FromBranches(tail[k - |head|], repoLabel, branches[1..]);
          var b, c :| && 0 <= b < |branches[1..]| && 0 <= c < |branches[1..][b].commits|
                      && tail[k - |head|] == CommitSource(repoLabel, branches[1..][b].commits[c]);
          assert branches[1..][b] == branches[b + 1];
          assert (head + tail)[k] == CommitSource(repoLabel, branches[b + 1].commits[c]);
        }
      }
    }
  }

  /** Every entry of the commit sources is a commit of one of the repositories. */
  lemma {:induction false} CommitSourcesSound(repos: seq<Repository>)
    ensures forall k :: 0 <= k < |CommitSources(repos)| ==> FromRepositories(CommitSources(repos)[k], repos)
    decreases |repos|
  {
    if |repos| > 0 {
      CommitSourcesSound(repos[1..]);
      BranchSourcesSound(repos[0].activity, repos[0].branches);
      var head := BranchSources(repos[0].activity, repos[0].branches);
      var tail := CommitSources(repos[1..]);
      assert CommitSources(repos) == head + tail;
      forall k | 0 <= k < |head + tail|
        ensures FromRepositories((head + tail)[k], repos)
      {
        if k < |head| {
          assert (head + tail)[k] == head[k];
          assert FromBranches(head[k], repos[0].activity, repos[0].branches);
        } else {
          assert (head + tail)[k] == tail[k - |head|];
          assert FromRepositories(tail[k - |head|], repos[1..]);
          var r :| 0 <= r < |repos[1..]| && FromBranches(tail[k - |head|], repos[1..][r].activity, repos[1..][r].branches);
          assert repos[1..][r] == repos[r + 1];
        }
      }
    }
  }

  lemma {:induction false} BranchSourcesComplete(repoLabel: Option<string>, branches: seq<Branch>)
    ensures |BranchSources(repoLabel, branches)| == BranchCommitCount(branches)
    ensures forall b, c :: 0 <= b < |branches| && 0 <= c < |branches[b].commits| ==>
              CommitSource(repoLabel, branches[b].commits[c]) in BranchSources(repoLabel, branches)
    decreases |branches|
  {
    if |branches| > 0 {
      BranchSourcesComplete(repoLabel, branches[1..]);
      var commits := branches[0].commits;
      var head := seq(|commits|, i requires 0 <= i < |commits| => CommitSource(repoLabel, commits[i]));
      assert BranchSources(repoLabel, branches) == head + BranchSources(repoLabel, branches[1..]);
      forall b, c | 0 <= b < |branches| && 0 <= c < |branches[b].commits|
        ensures CommitSource(repoLabel, branches[b].commits[c]) in BranchSources(repoLabel, branches)
      {
        if b == 0 {
          assert head[c] == CommitSource(repoLabel, branches[b].commits[c]);
        } else {
          assert branches[b] == branches[1..][b - 1];
        }
      }
    }
  }

  /** Every commit of every branch of every repository is listed with its repository's
      label, every entry is such a commit, and the list has exactly one entry per
      commit. */
  lemma {:induction false} CommitSourcesComplete(repos: seq<Repository>)
    ensures |CommitSources(repos)| == CommitCount(repos)
    ensures forall r, b, c :: 0 <= r < |repos| && 0 <= b < |repos[r].branches| && 0 <= c < |repos[r].branches[b].commits| ==>
              CommitSource(repos[r].activity, repos[r].branches[b].commits[c]) in CommitSources(repos)
    ensures forall k :: 0 <= k < |CommitSources(repos)| ==> FromRepositories(CommitSources(repos)[k], repos)
    decreases |repos|
  {
    CommitSourcesSound(repos);
    if |repos| > 0 {
      CommitSourcesComplete(repos[1..]);
      BranchSourcesComplete(repos[0].activity, repos[0].branches);
      forall r, b, c | 0 <= r < |repos| && 0 <= b < |repos[r].branches| && 0 <= c < |repos[r].branches[b].commits|
        ensures CommitSource(repos[r].activity, repos[r].branches[b].commits[c]) in CommitSources(repos)
      {
        if r > 0 {
          assert repos[r] == repos[1..][r - 1];
        }
      }
    }
  }

  /** Branches are listed one after the other: the sources of two branch lists
      concatenated are the sources of the first followed by those of the second. */
  lemma {:induction false} BranchSourcesAppend(repoLabel: Option<string>, a: seq<Branch>, b: seq<Branch>)
    ensures BranchSources(repoLabel, a + b) == BranchSources(repoLabel, a) + BranchSources(repoLabel, b)
    decreases |a|
  {
    if |a| == 0 {
      assert a + b == b;
    } else {
      assert (a + b)[0] == a[0];
      assert (a + b)[1..] == a[1..] + b;
      BranchSourcesAppend(repoLabel, a[1..], b);
    }
  }

  /** The sources of one branch are its commits, in order, each tagged with the label. */
  lemma OneBranchSources(repoLabel: Option<string>, br: Branch)
    ensures |BranchSources(repoLabel, [br])| == |br.commits|
    ensures forall c :: 0 <= c < |br.commits| ==> BranchSources(repoLabel, [br])[c] == CommitSource(repoLabel, br.commits[c])
  {
    assert [br][1..] == [];
  }

  /** Repositories are listed one after the other, each with its branches' sources:
      together with `BranchSourcesAppend` and `OneBranchSources` this fixes the order
      and the multiplicity of every entry. */
  lemma {:induction false} CommitSourcesAppend(a: seq<Repository>, b: seq<Repository>)
    ensures CommitSources(a + b) == CommitSources(a) + CommitSources(b)
    decreases |a|
  {
    if |a| == 0 {
      assert a + b == b;
    } else {
      assert (a + b)[0] == a[0];
      assert (a + b)[1..] == a[1..] + b;
      CommitSourcesAppend(a[1..], b);
    }
  }

  /** The sources of one repository are those of its branches, under its label. */
  lemma OneRepositorySources(repo: Repository)
    ensures CommitSources([repo]) == BranchSources(repo.activity, repo.branches)
  {
    assert [repo][1..] == [];
  }

  /** One activity per commit, in order, with the repository's label, the parsed commit
      date and the author's e-mail. `parse` stands for `DateTime.Parse`; a date it
      rejects throws. */
  function ToActivities(sources: seq<CommitSource>, parse: string -> Option<DateTime>): (r: Result<seq<ActivityInfo>, Fault>)
    ensures r.Success? ==>
              && |r.value| == |sources|
              && forall i :: 0 <= i < |sources| ==>
                   && r.value[i].activity == sources[i].repoLabel
                   && r.value[i].userEmail == sources[i].commit.authorEmail
                   && parse(sources[i].commit.date) == Some(r.value[i].date)
                   && r.value[i].userId.None?
                   && r.value[i].paths == {}
    ensures r.Failure? <==> exists i :: 0 <= i < |sources| && parse(sources[i].commit.date).None?
    ensures r.Failure? ==> r.error == FormatError
  {
    if |sources| == 0 then Success([])
    else
      match parse(sources[0].commit.date)
      case None => Failure(FormatError)
      case Some(date) =>
        var head := ActivityInfo(None, sources[0].commit.authorEmail, date, sources[0].repoLabel, {});
        match ToActivities(sources[1..], parse)
        case Failure(e) =>
          Failure(e)
        case Success(rest) =>
          Success([head] + rest)
  }

  /** `CreateRepoActivities`: one activity per commit, then one per author e-mail. */
  function CreateRepoActivities(repos: seq<Repository>, parse: string -> Option<DateTime>): Result<seq<ActivityInfo>, Fault>
  {
    match ToActivities(CommitSources(repos), parse)
    case Failure(e) => Failure(e)
    case Success(all) => Success(FirstPerEmail(all))
  }

  /** The development activities carry each a repository label and a commit author's
      e-mail, at most one activity per e-mail, and every commit author's e-mail is present.
      The activity kept for an author is the first one built for that author, so its
      label and date are those of the author's first commit in listing order. */
  lemma RepoActivitiesPerAuthor(repos: seq<Repository>, parse: string -> Option<DateTime>)
    requires CreateRepoActivities(repos, parse).Success?
    ensures ToActivities(CommitSources(repos), parse).Success?
    ensures var r := CreateRepoActivities(repos, parse).value;
            var all := ToActivities(CommitSources(repos), parse).value;
            forall k :: 0 <= k < |r| ==> exists i :: 0 <= i < |all| && r[k] == all[i] && IsFirstOfEmail(all, i)
    ensures var r := CreateRepoActivities(repos, parse).value;
            var sources := CommitSources(repos);
            && (forall k :: 0 <= k < |r| ==>
                  exists i :: 0 <= i < |sources| && r[k].activity == sources[i].repoLabel
                              && r[k].userEmail == sources[i].commit.authorEmail)
            && (forall k, l :: 0 <= k < l < |r| ==> r[k].userEmail != r[l].userEmail)
            && Emails(r) == set i | 0 <= i < |sources| :: sources[i].commit.authorEmail
  {
    var all := ToActivities(CommitSources(repos), parse).value;
    FirstPerEmailProperties(all);
    assert Emails(all) == set i | 0 <= i < |CommitSources(repos)| :: CommitSources(repos)[i].commit.authorEmail;
  }

  // ---------------------------------------------------------------------------
  // GetMentoringActivities

  /** The event started no later than yesterday and ends no earlier; a comparison with
      a null date is false. */
  predicate InWindow(e: CalendarEvent, yesterday: DateTime)
  {
    && e.startTime.Some? && NotAfter(e.startTime.value, yesterday)
    && e.endTime.Some? && NotAfter(yesterday, e.endTime.value)
  }

  /** The two `Where` filters of `GetMentoringActivities`, in calendar order. */
  function EventsInWindow(events: seq<CalendarEvent>, yesterday: DateTime): (r: seq<CalendarEvent>)
    ensures forall e :: e in r <==> e in events && InWindow(e, yesterday)
    ensures |r| <= |events|
  {
    if |events| == 0 then []
    else (if InWindow(events[0], yesterday) then [events[0]] else []) + EventsInWindow(events[1..], yesterday)
  }

  /** The window filter works event by event: it keeps the order and the repetitions
      of the events in the window. */
  lemma {:induction false} EventsInWindowAppend(a: seq<CalendarEvent>, b: seq<CalendarEvent>, yesterday: DateTime)
    ensures EventsInWindow(a + b, yesterday) == EventsInWindow(a, yesterday) + EventsInWindow(b, yesterday)
    decreases |a|
  {
    if |a| == 0 {
      assert a + b == b;
    } else {
      assert (a + b)[0] == a[0];
      assert (a + b)[1..] == a[1..] + b;
      EventsInWindowAppend(a[1..], b, yesterday);
    }
  }

  /** Reading the employee's e-mail from the Employee column. The field lookup is
      null-conditional, so a missing field skips the read and gives a null e-mail, as
      does a value that is not a user value; converting an empty value to text, or
      reading the e-mail of a user value without a User, throws. */
  function EmployeeEmail(c: EmployeeCell): (r: Result<Option<string>, Fault>)
    ensures r.Failure? <==> c.EmptyValue? || (c.UserValue? && c.user.None?)
    ensures r.Failure? ==> r.error == NullReference
    ensures r.Success? && r.value.Some? ==>
              c.UserValue? && c.user.Some? && c.user.value.email == r.value
    ensures (c.NoField? || c.NotAUser?) ==> r == Success(None)
    ensures c.UserValue? && c.user.Some? ==> r == Success(c.user.value.email)
  {
    match c
    case NoField => Success(None)
    case EmptyValue => Failure(NullReference)
    case NotAUser => Success(None)
    case UserValue(None) => Failure(NullReference)
    case UserValue(Some(u)) => Success(u.email)
  }

  /** The employee's e-mail of the event can be read without an exception. */
  predicate Readable(e: CalendarEvent)
  {
    EmployeeEmail(e.employee).Success?
  }

  /** The activity recorded for a calendar event whose employee e-mail was read: that
      e-mail, the Mentoring label, dated yesterday. */
  function MentoringActivity(email: Option<string>, yesterday: DateTime, mentoring: string): ActivityInfo
  {
    ActivityInfo(None, email, yesterday, Some(mentoring), {})
  }

  /** The `foreach` of `GetMentoringActivities` over the events in the window: one
      activity per event, in order, until an unreadable Employee column throws. */
  function ReadMentoring(kept: seq<CalendarEvent>, yesterday: DateTime, mentoring: string): (r: Result<seq<ActivityInfo>, Fault>)
    ensures r.Success? <==> forall i :: 0 <= i < |kept| ==> Readable(kept[i])
    ensures r.Success? <==> forall e :: e in kept ==> Readable(e)
    ensures r.Failure? ==> r.error == NullReference
    ensures r.Success? ==>
              && |r.value| == |kept|
              && forall i :: 0 <= i < |kept| ==>
                   r.value[i] == MentoringActivity(EmployeeEmail(kept[i].employee).value, yesterday, mentoring)
  {
    if |kept| == 0 then Success([])
    else
      match EmployeeEmail(kept[0].employee)
      case Failure(e) => Failure(e)
      case Success(email) =>
        match ReadMentoring(kept[1..], yesterday, mentoring)
        case Failure(e) => Failure(e)
        case Success(rest) => Success([MentoringActivity(email, yesterday, mentoring)] + rest)
  }

  /** `GetMentoringActivities` once the calendar is read (`None` when the list is
      missing): one Mentoring activity dated yesterday per event in the window, then one
      per e-mail; it throws when an event in the window has an unreadable Employee
      column. */
  function GetMentoringActivities(events: Option<seq<CalendarEvent>>, yesterday: DateTime, mentoring: string): (r: Result<seq<ActivityInfo>, Fault>)
    ensures events.None? ==> r == Success([])
    ensures events.Some? ==>
              (r.Success? <==> forall e :: e in events.value && InWindow(e, yesterday) ==> Readable(e))
    ensures r.Failure? ==> r.error == NullReference
    ensures r.Success? ==> forall i :: 0 <= i < |r.value| ==>
              && r.value[i].date == yesterday && r.value[i].activity == Some(mentoring)
              && r.value[i].userId.None? && r.value[i].paths == {}
    ensures r.Success? && events.Some? ==>
              Emails(r.value) == set e | e in events.value && InWindow(e, yesterday) && Readable(e)
                                       :: EmployeeEmail(e.employee).value
    ensures r.Success? ==> forall k, l :: 0 <= k < l < |r.value| ==> r.value[k].userEmail != r.value[l].userEmail
  {
    match events
    case None => Success([])
    case Some(evts) =>
      var kept := EventsInWindow(evts, yesterday);
      match ReadMentoring(kept, yesterday, mentoring)
      case Failure(e) => Failure(e)
      case Success(all) =>
        FirstPerEmailProperties(all);
        WindowEmails(evts, yesterday, mentoring);
        Success(FirstPerEmail(all))
  }

  /** The e-mails read from the window are those of its (readable) events. */
  lemma WindowEmails(evts: seq<CalendarEvent>, yesterday: DateTime, mentoring: string)
    requires ReadMentoring(EventsInWindow(evts, yesterday), yesterday, mentoring).Success?
    ensures Emails(ReadMentoring(EventsInWindow(evts, yesterday), yesterday, mentoring).value)
              == set e | e in evts && InWindow(e, yesterday) && Readable(e) :: EmployeeEmail(e.employee).value
  {
    var kept := EventsInWindow(evts, yesterday);
    var all := ReadMentoring(kept, yesterday, mentoring).value;
    forall e | e in evts && InWindow(e, yesterday) && Readable(e)
      ensures EmployeeEmail(e.employee).value in Emails(all)
    {
      var i :| 0 <= i < |kept| && kept[i] == e;
      assert all[i].userEmail == EmployeeEmail(e.employee).value;
    }
  }

  // ---------------------------------------------------------------------------
  // Execute

  /** The list `Execute` sends: the development activities followed by the mentoring
      activities. The development list is built first; an exception in either step
      means nothing is sent. */
  function TimerActivities(
    repos: seq<Repository>, parse: string -> Option<DateTime>,
    events: Option<seq<CalendarEvent>>, yesterday: DateTime, mentoring: string): (r: Result<seq<ActivityInfo>, Fault>)
    ensures r.Success? <==>
              CreateRepoActivities(repos, parse).Success? && GetMentoringActivities(events, yesterday, mentoring).Success?
    ensures CreateRepoActivities(repos, parse).Failure? ==> r == CreateRepoActivities(repos, parse)
    ensures r.Success? ==>
              var dev := CreateRepoActivities(repos, parse).value;
              var ment := GetMentoringActivities(events, yesterday, mentoring).value;
              && |r.value| == |dev| + |ment|
              && (forall i :: 0 <= i < |dev| ==> r.value[i] == dev[i])
              && (forall i :: 0 <= i < |ment| ==> r.value[|dev| + i] == ment[i])
  {
    match CreateRepoActivities(repos, parse)
    case Failure(e) => Failure(e)
    case Success(dev) =>
      match GetMentoringActivities(events, yesterday, mentoring)
      case Failure(e) => Failure(e)
      case Success(ment) => Success(dev + ment)
  }
}

=== FILE: wrappers.dfy ===
/** Option and Result, the two failure-carrying shapes the model uses in place of
    C# null references and thrown exceptions. */
module Wrappers {

  /** A value that may be absent; `None` stands for a C# null reference. */
  datatype Option<+T> = None | Some(value: T)

  /** Either a computed value or the exception the C# code would throw. */
  datatype Result<+T, +E> = Success(value: T) | Failure(error: E)
}
